=== FILE: README.md ===
# Google ML Vision plugin (Android side) — a Dafny model

This project models the Android half of the Flutter ML Vision plugin: the
method-call handler `MlVisionHandler` and the face detector `GMLKFaceDetector`.

The handler receives method calls such as `FaceDetector#processImage` and
`FaceDetector#close`. Each call carries an integer handle that the application
allocated. The handler keeps a table from handles to live detectors:

- Every detection first casts the call's `options` argument to a map, so
  options that are neither a map nor null throw before anything else.
- On the first detection for a handle, it creates a detector lazily from the
  call's options. Later detections for that handle reuse the detector; their
  options, once past the cast, play no further part.
- Closing a handle closes its detector and unbinds the handle, however the
  close ends.
- Before any detection, the handler decodes the call's image payload. A file
  payload is rotated upright according to its EXIF orientation. A byte buffer
  comes with its width, height and rotation.

The face detector turns its untyped options into an engine configuration. It
shapes each face the engine finds into a key–value record with optional
probabilities, a tracking id, a landmark map, a contour map and the
`allPoints` aggregate of every contour point.

## Modules

| file | module | contents |
|---|---|---|
| `wrappers.dfy` | `Wrappers` | `Option` and `Result`, usable with `:-` |
| `channel.dfy` | `Channel` | channel `Value`s, the `Response` of a call, escaping exceptions (`Thrown`), typed reads of argument maps, 32-bit integers |
| `face_detection.dfy` | `FaceDetection` | option parsing, the engine's `Face`, result shaping, the all-points aggregate |
| `image_decoding.dfy` | `ImageDecoding` | the EXIF orientation mapping, the `file`/`bytes` dispatch, and the `double` to `int` conversion of buffer dimensions |
| `registry.dfy` | `Registry` | the handle-to-detector table: get, add with duplicate rejection, remove |
| `handler.dfy` | `Handler` | routing, detection, closing, and the entry point `OnMethodCall` as a step `(table, call) -> (table', response)` |

### How the model is built

- **Exceptions.** An exception that escapes the plugin is the response
  `Fatal(t)`. `t` is a structured `Thrown`, for example `HandleDoesNotExist(h)`
  or `NotAMode(v)`, rather than the formatted message. Errors that the plugin
  reports itself are `Error(code, message)`.
- **Outside the plugin.** Everything that happens outside the plugin during a
  call is a parameter (`Handler.Foreign`). This covers:
  - the outcome of reading the image file;
  - whether the image codec accepts a byte buffer;
  - the detection engine, as a function from the decoded image (null
    included) to `Found(faces)`, `EngineFailed(message)` or `ProcessThrew(t)`.
    The last stands for `process` throwing at once, before any listener is
    attached;
  - how closing the engine ends.
- **Numbers.** Floating-point values are exact reals. `Double.intValue()` on the
  buffer dimensions is written out: it rounds toward zero and saturates at the
  32-bit bounds. Java `int` arithmetic is written out where it occurs: the
  box's width and height wrap around by 2^32 (`Channel.Sub32`). An integer
  argument beyond the 32-bit range is what the channel's codec delivers as a
  `Long`, so a cast of it to `Integer` (the handle, the buffer rotation) throws
  a class-cast exception.
- **Reading of the source.** The Kotlin code is a mechanical conversion from
  Java and does not compile as written. Its casts such as `left as Double` on an integer are read as the numeric
  widening the conversion stands for. A `Boolean` option used as a condition is
  read as an unboxing, which throws on null or on a non-boolean. The cast of
  the `options` argument to a map at the start of a detection lets null
  through, as the channel's generic `argument` read does; null options only
  throw when a face detector is built from them.

### Behaviour of the code worth knowing

- **Missing width.** A `bytes` payload whose metadata lacks `width` unboxes a
  null and throws a null-pointer exception, which escapes the handler
  (`ImageDecoding.ExampleMissingWidth`).
- **Rejected buffer.** When the codec rejects a buffer, its
  `IllegalArgumentException` is swallowed and the image is `null`; the `throw`
  after it is unreachable. `DecodeBytes` yields `Success(None)` in that case.
- **Binding before detection.** A detector created for a free handle is bound
  before `process` runs. If `process` throws at once, the detector stays bound
  and the exception escapes (`Handler.ThrowingProcessKeepsBinding`).
- **Detection error code.** The face detector reports an engine failure
  with the code `"faceDetectorError"`.

## Model

| member | source | states |
|---|---|---|
| FaceDetection.ParsePerformance | android/src/main/kotlin/com/brianmtully/flutter/plugins/googlemlvision/GMLKFaceDetector.kt:156-161 | `"accurate"` gives ACCURATE and `"fast"` gives FAST (each an iff); any other mode value throws `NotAMode` carrying that value |
| FaceDetection.ParseOptions | android/src/main/kotlin/com/brianmtully/flutter/plugins/googlemlvision/GMLKFaceDetector.kt:149-172 | construction succeeds exactly when the three switches and tracking are booleans, the mode is known and the minimum face size is a double. Each detail mode is ALL iff its switch is true, tracking is on iff `enableTracking` is true, and the minimum face size is the option's value. Well-typed switches with a bad mode throw `NotAMode(mode)` |
| FaceDetection.CoordsList | android/src/main/kotlin/com/brianmtully/flutter/plugins/googlemlvision/GMLKFaceDetector.kt:127-132 | a contour's point list becomes a list of (x, y) pairs of the same length, in order, each pair holding that point's coordinates |
| FaceDetection.FindContour | android/src/main/kotlin/com/brianmtully/flutter/plugins/googlemlvision/GMLKFaceDetector.kt:125-126 | looking up a contour type finds nothing iff no contour has that type; otherwise it finds the first contour of that type |
| FaceDetection.FindContourUnique | android/src/main/kotlin/com/brianmtully/flutter/plugins/googlemlvision/GMLKFaceDetector.kt:124-126 | when no two contours share a kind, as the engine guarantees, looking up the kind of any contour finds exactly that contour |
| FaceDetection.LandmarkPosition | android/src/main/kotlin/com/brianmtully/flutter/plugins/googlemlvision/GMLKFaceDetector.kt:117-122 | a landmark's value is null iff the face lacks that landmark, else the pair of its coordinates |
| FaceDetection.ContourPosition | android/src/main/kotlin/com/brianmtully/flutter/plugins/googlemlvision/GMLKFaceDetector.kt:124-135 | a named contour's value is null iff the face lacks it, else a list of pairs with the contour's points' length and order |
| FaceDetection.AllContourPoints | android/src/main/kotlin/com/brianmtully/flutter/plugins/googlemlvision/GMLKFaceDetector.kt:137-147 | the aggregate has as many entries as all contours have points together |
| FaceDetection.AllContourPointsAppend | android/src/main/kotlin/com/brianmtully/flutter/plugins/googlemlvision/GMLKFaceDetector.kt:140-145 | the aggregate of two runs of contours is the concatenation of their aggregates, and the point counts add up |
| FaceDetection.AllContourPointsAt | android/src/main/kotlin/com/brianmtully/flutter/plugins/googlemlvision/GMLKFaceDetector.kt:140-145 | point j of contour k sits in the aggregate after all points of the earlier contours |
| FaceDetection.CollectAllContourPoints | android/src/main/kotlin/com/brianmtully/flutter/plugins/googlemlvision/GMLKFaceDetector.kt:137-147 | the nested loop over contours and their points yields exactly the in-order concatenation of every contour's pairs |
| FaceDetection.LandmarkKeysDistinct | android/src/main/kotlin/com/brianmtully/flutter/plugins/googlemlvision/GMLKFaceDetector.kt:72-81 | the ten landmark keys are pairwise distinct, so no landmark overwrites another |
| FaceDetection.ContourKeysDistinct | android/src/main/kotlin/com/brianmtully/flutter/plugins/googlemlvision/GMLKFaceDetector.kt:87-113 | the thirteen contour keys are pairwise distinct and none is `allPoints` |
| FaceDetection.LandmarkData | android/src/main/kotlin/com/brianmtully/flutter/plugins/googlemlvision/GMLKFaceDetector.kt:70-83 | the landmark map's keys are exactly the ten landmark keys; each value is null iff the landmark is absent, else its coordinate pair |
| FaceDetection.ContourData | android/src/main/kotlin/com/brianmtully/flutter/plugins/googlemlvision/GMLKFaceDetector.kt:85-115 | the contour map's keys are exactly `allPoints` and the thirteen contour keys; `allPoints` is the aggregate; each named value is null iff the contour is absent, else traces its points |
| FaceDetection.FieldValue | android/src/main/kotlin/com/brianmtully/flutter/plugins/googlemlvision/GMLKFaceDetector.kt:26-53 | only the three probabilities and the tracking id can be missing, each exactly when the engine did not report it; no supplied value is null |
| FaceDetection.Record | android/src/main/kotlin/com/brianmtully/flutter/plugins/googlemlvision/GMLKFaceDetector.kt:25-55 | a field's key is in the record iff the face supplies the field, and then holds the supplied value |
| FaceDetection.FaceRecord | android/src/main/kotlin/com/brianmtully/flutter/plugins/googlemlvision/GMLKFaceDetector.kt:25-55 | a face record's keys are exactly the fields the face supplies, and no value in it is null |
| FaceDetection.FaceRecordOptional | android/src/main/kotlin/com/brianmtully/flutter/plugins/googlemlvision/GMLKFaceDetector.kt:32-53 | smiling, left-eye-open and right-eye-open probabilities and the tracking id are each present iff the engine reported them, and then carry the reported value |
| FaceDetection.FaceRecordValues | android/src/main/kotlin/com/brianmtully/flutter/plugins/googlemlvision/GMLKFaceDetector.kt:26-31 | `left`, `top`, `width`, `height` and both pose angles are always present; width is right minus left and height bottom minus top, in 32-bit wrap-around arithmetic |
| FaceDetection.FaceRecordSubRecords | android/src/main/kotlin/com/brianmtully/flutter/plugins/googlemlvision/GMLKFaceDetector.kt:54-55 | `landmarks` and `contours` are always present and hold the landmark and contour maps |
| FaceDetection.FaceRecords | android/src/main/kotlin/com/brianmtully/flutter/plugins/googlemlvision/GMLKFaceDetector.kt:23-57 | one record per face, same count, record i shaped from face i |
| FaceDetection.DetectionReply | android/src/main/kotlin/com/brianmtully/flutter/plugins/googlemlvision/GMLKFaceDetector.kt:16-68 | found faces give one success reply listing one record per face in order; an engine failure gives the single error `faceDetectorError` with the engine's message; an exception thrown by `process` escapes as it is |
| FaceDetection.ExampleFaceBox | android/src/main/kotlin/com/brianmtully/flutter/plugins/googlemlvision/GMLKFaceDetector.kt:26-31 | a face with box (10, 20) to (40, 60) and angles 1.5 and -2.0 is reported with left 10, top 20, width 30, height 40 and those angles |
| FaceDetection.ExampleFaceOptional | android/src/main/kotlin/com/brianmtully/flutter/plugins/googlemlvision/GMLKFaceDetector.kt:32-53 | a face with smiling probability 0.9 and no tracking id carries `smilingProbability` 0.9 and no `trackingId` key |
| FaceDetection.ExampleWideBoxWraps | android/src/main/kotlin/com/brianmtully/flutter/plugins/googlemlvision/GMLKFaceDetector.kt:28 | a box from the least to the greatest 32-bit integer is reported with width -1, its width 2^32 - 1 wrapped around |
| ImageDecoding.RotationDegrees | android/src/main/kotlin/com/brianmtully/flutter/plugins/googlemlvision/GoogleMlVisionHandler.kt:127-137 | the result is always 0, 90, 180 or 270; it is 90, 180 or 270 exactly for ROTATE_90, ROTATE_180 and ROTATE_270 (tags 6, 3, 8) |
| ImageDecoding.FileRotation | android/src/main/kotlin/com/brianmtully/flutter/plugins/googlemlvision/GoogleMlVisionHandler.kt:127-137 | an unreadable file is an I/O failure with its message; a readable file with orientation tag t needs the rotation t calls for, and one without a tag counts as upright |
| ImageDecoding.DoubleToInt | android/src/main/kotlin/com/brianmtully/flutter/plugins/googlemlvision/GoogleMlVisionHandler.kt:99-102 | the conversion of a dimension lands in the 32-bit range, rounds toward zero inside it and saturates outside it |
| ImageDecoding.AsString | android/src/main/kotlin/com/brianmtully/flutter/plugins/googlemlvision/GoogleMlVisionHandler.kt:70-74 | a string reads as itself and null as absent; any other value throws a class-cast exception |
| ImageDecoding.DecodeFile | android/src/main/kotlin/com/brianmtully/flutter/plugins/googlemlvision/GoogleMlVisionHandler.kt:73-93 | an I/O error arises iff the path is a string and the file is unreadable. A readable file gives the file itself iff it needs no rotation, else a bitmap rotated by 90, 180 or 270 as its orientation says. A non-string path throws |
| ImageDecoding.DecodeBytes | android/src/main/kotlin/com/brianmtully/flutter/plugins/googlemlvision/GoogleMlVisionHandler.kt:94-116 | decoding succeeds iff the buffer is bytes, the metadata a map, width and height doubles and rotation a 32-bit integer. It never reports an I/O error. An image results iff the codec accepts, built from the buffer, the converted dimensions, the rotation and NV21 |
| ImageDecoding.Decode | android/src/main/kotlin/com/brianmtully/flutter/plugins/googlemlvision/GoogleMlVisionHandler.kt:69-124 | `file` and `bytes` go to their branches; a missing tag or any other string tag throws "no image type" carrying the tag; a tag that is not a string throws a class-cast exception; I/O errors come only from unreadable files |
| ImageDecoding.BytesRoundTrip | android/src/main/kotlin/com/brianmtully/flutter/plugins/googlemlvision/GoogleMlVisionHandler.kt:94-114 | a buffer payload built from whole 32-bit dimensions and a 32-bit rotation decodes back to them when the codec accepts, and to no image when it does not; a rotation beyond 32 bits throws a class-cast exception |
| ImageDecoding.FileRoundTrip | android/src/main/kotlin/com/brianmtully/flutter/plugins/googlemlvision/GoogleMlVisionHandler.kt:73-93 | a file payload decodes to the same path, used directly when upright and rotated by its orientation otherwise; an unreadable file is an I/O error with its message |
| ImageDecoding.ExampleBytesDecode | android/src/main/kotlin/com/brianmtully/flutter/plugins/googlemlvision/GoogleMlVisionHandler.kt:94-110 | a 100 by 50 buffer with rotation 0 that the codec accepts decodes to a 100 by 50 NV21 image |
| ImageDecoding.ExampleMissingWidth | android/src/main/kotlin/com/brianmtully/flutter/plugins/googlemlvision/GoogleMlVisionHandler.kt:99-100 | metadata without a width throws a null-pointer exception and yields no image |
| Channel.Lookup | android/src/main/kotlin/com/brianmtully/flutter/plugins/googlemlvision/GoogleMlVisionHandler.kt:95-101 | reading a key of an argument map gives its value, and null when the key is absent |
| Channel.ReadBool | android/src/main/kotlin/com/brianmtully/flutter/plugins/googlemlvision/GMLKFaceDetector.kt:150-155 | a boolean switch reads as its value; null throws a null-pointer exception and any other value a class-cast exception |
| Channel.ReadDouble | android/src/main/kotlin/com/brianmtully/flutter/plugins/googlemlvision/GoogleMlVisionHandler.kt:99-102 | a double reads as its value; null throws a null-pointer exception and any other value a class-cast exception |
| Channel.ReadInt | android/src/main/kotlin/com/brianmtully/flutter/plugins/googlemlvision/GoogleMlVisionHandler.kt:147-149 | an `Integer` within the 32-bit range reads as its value; null throws a null-pointer exception; anything else, a `Long` beyond the range included, throws a class-cast exception |
| Channel.Sub32 | android/src/main/kotlin/com/brianmtully/flutter/plugins/googlemlvision/GMLKFaceDetector.kt:28-29 | the 32-bit difference equals the exact difference when that fits, and otherwise differs from it by exactly 2^32, landing in range |
| Registry.GetDetector | android/src/main/kotlin/com/brianmtully/flutter/plugins/googlemlvision/GoogleMlVisionHandler.kt:147-150 | a detector is found iff the handle is bound, and it is the bound one |
| Registry.AddDetector | android/src/main/kotlin/com/brianmtully/flutter/plugins/googlemlvision/GoogleMlVisionHandler.kt:139-145 | binding fails iff the handle is occupied, with "already exists" for that handle; otherwise the handle is added, every existing binding is kept, and binding no detector leaves the table unchanged |
| Registry.RemoveDetector | android/src/main/kotlin/com/brianmtully/flutter/plugins/googlemlvision/GoogleMlVisionHandler.kt:63-64 | exactly the given handle is unbound; all others keep their detectors |
| Registry.AddThenRemove | android/src/main/kotlin/com/brianmtully/flutter/plugins/googlemlvision/GoogleMlVisionHandler.kt:139-145 | removing a freshly bound handle restores the table: removal is the inverse of binding |
| Registry.BindOnce | android/src/main/kotlin/com/brianmtully/flutter/plugins/googlemlvision/GoogleMlVisionHandler.kt:139-145 | after a handle is bound, a second binding is refused and the first detector stays |
| Registry.Detector.ClassName | android/src/main/kotlin/com/brianmtully/flutter/plugins/googlemlvision/GoogleMlVisionHandler.kt:60 | the class name the close error code is formed from is a simple name: non-empty and without a package prefix |
| Registry.Detector.HandleDetection | android/src/main/kotlin/com/brianmtully/flutter/plugins/googlemlvision/GMLKFaceDetector.kt:16-68 | a bound face detector answers success exactly when the engine found faces, with one record per face in the engine's order; an engine failure gives `faceDetectorError` with the engine's message, and an exception from `process` escapes |
| Handler.Route | android/src/main/kotlin/com/brianmtully/flutter/plugins/googlemlvision/GoogleMlVisionHandler.kt:15-25 | a method routes to detection iff it is one of the four detection methods, to close iff one of the four close methods, and is unsupported otherwise |
| Handler.KindOf | android/src/main/kotlin/com/brianmtully/flutter/plugins/googlemlvision/GoogleMlVisionHandler.kt:40 | the kind is the prefix of the method name that contains no `#` and is followed by `#` or by the end of the name |
| Handler.KindOfQualified | android/src/main/kotlin/com/brianmtully/flutter/plugins/googlemlvision/GoogleMlVisionHandler.kt:40 | a `#`-free kind followed by `#` and any action gives back that kind |
| Handler.ProcessMethodKinds | android/src/main/kotlin/com/brianmtully/flutter/plugins/googlemlvision/GoogleMlVisionHandler.kt:16-41 | each of the four detection methods names its own kind |
| Handler.ProcessKinds | android/src/main/kotlin/com/brianmtully/flutter/plugins/googlemlvision/GoogleMlVisionHandler.kt:40-42 | among the detection methods, exactly `FaceDetector#processImage` is of the face kind |
| Handler.HandleArg | android/src/main/kotlin/com/brianmtully/flutter/plugins/googlemlvision/GoogleMlVisionHandler.kt:147-149 | a call names a handle iff its `handle` argument is an integer within the 32-bit range, and then names that integer |
| Handler.CreateDetector | android/src/main/kotlin/com/brianmtully/flutter/plugins/googlemlvision/GoogleMlVisionHandler.kt:40-42 | only the face kind gets a detector, configured by parsing the options; a parse failure propagates; missing or non-map options throw a cast failure; other kinds get none |
| Handler.DetectOnHandle | android/src/main/kotlin/com/brianmtully/flutter/plugins/googlemlvision/GoogleMlVisionHandler.kt:38-46 | once the image is decoded, only the call's handle can change; no binding is replaced; the table changes only when the handle was free, and then the detector now bound to it answered the call, whatever its engine did |
| Handler.HandleDetection | android/src/main/kotlin/com/brianmtully/flutter/plugins/googlemlvision/GoogleMlVisionHandler.kt:28-47 | options that are neither a map nor null throw a class-cast exception before anything else, changing nothing. A detection keeps every existing binding, changes no handle but its own. The table changes only when the image decoded and the call's handle was free, and then the detector newly bound to it answered |
| Handler.CloseDetector | android/src/main/kotlin/com/brianmtully/flutter/plugins/googlemlvision/GoogleMlVisionHandler.kt:49-66 | a close never adds a binding. A non-integer handle throws a cast failure. An unbound handle throws "does not exist" with nothing changed. A bound handle is removed and nothing else changes |
| Handler.OnMethodCall | android/src/main/kotlin/com/brianmtully/flutter/plugins/googlemlvision/GoogleMlVisionHandler.kt:14-26 | unsupported methods answer not-implemented with the table unchanged. A call touches no handle but its own, and none at all without an integer handle. Detections keep all bindings; closes add none |
| Handler.DetectionIOError | android/src/main/kotlin/com/brianmtully/flutter/plugins/googlemlvision/GoogleMlVisionHandler.kt:29-37 | with map or null options, an unreadable image file answers `MLVisionDetectorIOError` with the file's message and leaves the table as it was |
| Handler.BoundHandleAnswers | android/src/main/kotlin/com/brianmtully/flutter/plugins/googlemlvision/GoogleMlVisionHandler.kt:29-46 | with map or null options, a detection on a bound handle is answered by the bound detector and changes nothing |
| Handler.DecodeIgnoresOptions | android/src/main/kotlin/com/brianmtully/flutter/plugins/googlemlvision/GoogleMlVisionHandler.kt:29-33 | image decoding is independent of the `options` argument |
| Handler.NonMapOptionsFatal | android/src/main/kotlin/com/brianmtully/flutter/plugins/googlemlvision/GoogleMlVisionHandler.kt:28-29 | options that are neither a map nor null make every detection throw a class-cast exception, whatever the image and the table, and change nothing |
| Handler.OptionsIgnoredWhenBound | android/src/main/kotlin/com/brianmtully/flutter/plugins/googlemlvision/GoogleMlVisionHandler.kt:29-46 | on a bound handle, replacing map or null options by other map or null options changes neither the response nor the table |
| Handler.FaceDetectorCreated | android/src/main/kotlin/com/brianmtully/flutter/plugins/googlemlvision/GoogleMlVisionHandler.kt:38-46 | the first face detection on a free handle with valid options binds a face detector with the parsed configuration, and that detector answers |
| Handler.ThrowingProcessKeepsBinding | android/src/main/kotlin/com/brianmtully/flutter/plugins/googlemlvision/GoogleMlVisionHandler.kt:38-46 | when `process` throws at once on a free face handle with valid options, the new detector stays bound and the exception escapes |
| Handler.CreatedDetectorReused | android/src/main/kotlin/com/brianmtully/flutter/plugins/googlemlvision/GoogleMlVisionHandler.kt:29-46 | a later detection on the same handle, with any detection method and map or null options, is answered by the created detector and binds nothing new |
| Handler.InvalidOptionsFatal | android/src/main/kotlin/com/brianmtully/flutter/plugins/googlemlvision/GoogleMlVisionHandler.kt:38-44 | options a face detector cannot be built from throw what parsing threw, and nothing is bound |
| Handler.UnknownModeFatal | android/src/main/kotlin/com/brianmtully/flutter/plugins/googlemlvision/GMLKFaceDetector.kt:11-13 | an unknown mode after well-typed switches throws "not a mode" with that mode during construction, and nothing is bound |
| Handler.OtherKindsUnbound | android/src/main/kotlin/com/brianmtully/flutter/plugins/googlemlvision/GoogleMlVisionHandler.kt:29-46 | with map or null options, a barcode, label or text detection on a free handle finds no detector and throws a null-pointer exception, binding nothing |
| Handler.CloseUnknown | android/src/main/kotlin/com/brianmtully/flutter/plugins/googlemlvision/GoogleMlVisionHandler.kt:50-55 | closing an unbound handle throws "does not exist" for that handle and changes nothing |
| Handler.LongHandleFatal | android/src/main/kotlin/com/brianmtully/flutter/plugins/googlemlvision/GoogleMlVisionHandler.kt:147-149 | a handle beyond the 32-bit range fails its cast to `Integer`: a close, or a detection whose image decodes, throws a class-cast exception and changes nothing |
| Handler.CloseUnbinds | android/src/main/kotlin/com/brianmtully/flutter/plugins/googlemlvision/GoogleMlVisionHandler.kt:56-65 | closing a bound handle removes exactly that handle whether the close succeeds or throws. Success answers null; an I/O failure answers `GMLKFaceDetectorIOError` with its message; any other exception escapes |
| Handler.ProcessThenCloseRestores | android/src/main/kotlin/com/brianmtully/flutter/plugins/googlemlvision/GoogleMlVisionHandler.kt:28-66 | a detection on a free handle followed by a close of it leaves the table as before, whether or not the detection bound a detector |
| Handler.DetectOnHandleIsLocal | android/src/main/kotlin/com/brianmtully/flutter/plugins/googlemlvision/GoogleMlVisionHandler.kt:38-46 | after decoding, a detection depends on the table only through its handle |
| Handler.HandleDetectionIsLocal | android/src/main/kotlin/com/brianmtully/flutter/plugins/googlemlvision/GoogleMlVisionHandler.kt:28-47 | a detection depends on the table only through the call's handle: tables that agree there give the same response and agree there afterwards |
| Handler.CallIsLocal | android/src/main/kotlin/com/brianmtully/flutter/plugins/googlemlvision/GoogleMlVisionHandler.kt:14-66 | two tables that agree on a call's handle give the same response and still agree on that handle afterwards, so calls on distinct handles do not interfere |

## Left out

- `GoogleMlVisionPlugin.kt` attaches and detaches the method channel. That is transport wiring, so it is not part of this model.
- `Detector.kt` is the detector interface. It is represented by the `Registry.Detector` datatype, whose only constructor is the face detector: the handler creates no other kind.
- The ML Kit engine is not modelled: `FaceDetection.getClient`, `process`, `close`, and the internals of `Face`, `FaceLandmark` and `FaceContour`. A face is an input datatype, and the outcome of a detection is a parameter (`Foreign.engine`).
- The asynchronous task listeners are not modelled: a detection's reply is computed at once from the engine outcome.
- File access and image codec work are foreign calls, so they are reduced to parameters: EXIF reading, `InputImage.fromFilePath`, `BitmapFactory.decodeFile`, `Matrix` rotation and `InputImage.fromByteArray`.
  - Reading the file, including the I/O exception either `ExifInterface` or `fromFilePath` may raise, is one outcome (`Foreign.file`).
  - Whether the codec accepts a buffer is one flag (`Foreign.accepted`).
  - A file that `decodeFile` cannot decode is not modelled; in the source it would be a null bitmap dereference.
- ImageDecoding.DecodeBytes: a `null` buffer that passes every metadata check throws a null-pointer exception in the model. That is ML Kit's non-null check, which is not visible here.
- The JVM `assert` statements on the image type and the buffer are not modelled, because they are disabled on Android.
- FaceDetection.ParseOptions: the minimum face size is kept as an exact real; its narrowing to `float` is not modelled, because floating point is out of scope.
- FaceDetection.FaceRecordValues: coordinates, angles and probabilities are exact reals, so float rounding is not modelled.
- Exception messages are structured `Thrown` values rather than formatted strings. The value each message is formatted from is kept: the handle, the image type, the mode.
- Handler.DetectOnHandle: binding no detector for a non-face kind (the source stores a `null` entry) is modelled as leaving the handle unbound. `get` reads both the same way.
- Handler.DetectOnHandle: the "already exists" failure of binding cannot occur here, because a binding is attempted only on a free handle. It is passed through as an escaping exception, not singled out.
- The engine keeps one contour per kind, but `FaceDetection.Face` does not require it: `FindContour` returns the first contour of a kind, and `FaceDetection.FindContourUnique` states that on a face with distinct contour kinds this is the only one.
- Box coordinates and the tracking id are `Int32` values, as the engine reports them; a tracking id is delivered as the `Integer` it is.
- Handler.DetectOnHandle: a rejected buffer hands a null image to the engine as `None`. What ML Kit's `process` does with it is not visible here, so its outcome is unconstrained: faces, a failure, or an exception thrown at once (`ProcessThrew`).
- FaceDetection.ContourType: only the thirteen contour kinds the plugin names exist. A contour of any other kind that `getAllContours()` might report, which would appear only under `allPoints`, is not modelled.
- Concurrency is not modelled: the table is an unsynchronised `SparseArray`, and each call is one atomic step.

=== FILE: channel.dfy ===
/** The values and replies that cross the platform method channel, and the
    typed reads the plugin performs on untyped argument maps. */
module Channel {
  import opened Wrappers

  /** A value of the channel's standard message codec. Floating-point numbers are
      modelled as exact reals; `Pair` is a `DoubleArray` of length two. An
      `Integer` outside the 32-bit range is what the codec delivers as a `Long`. */
  datatype Value =
    | Null
    | Bool(b: bool)
    | Integer(i: int)
    | Double(d: real)
    | Str(s: string)
    | Bytes(data: seq<bv8>)
    | Pair(x: real, y: real)
    | List(items: seq<Value>)
    | Dict(entries: map<string, Value>)

  /** The range of a Java `int`. */
  const IntMin := -0x8000_0000
  const IntMax := 0x7fff_ffff

  predicate IsInt32(i: int) {
    IntMin <= i <= IntMax
  }

  /** A value held in a Java `int`. */
  type Int32 = i: int | -0x8000_0000 <= i <= 0x7fff_ffff

  /** `a - b` in Java `int` arithmetic: the exact difference when it fits,
      otherwise the difference wrapped around by 2^32 into the range. */
  function Sub32(a: Int32, b: Int32): (r: Int32)
    ensures IsInt32(a - b) ==> r == a - b
    ensures r == a - b || r == a - b - 0x1_0000_0000 || r == a - b + 0x1_0000_0000
  {
    var d := a - b;
    if d > IntMax then d - 0x1_0000_0000
    else if d < IntMin then d + 0x1_0000_0000
    else d
  }

  /** An untyped argument map, as delivered with a method call. */
  type Args = map<string, Value>

  /** An exception that escapes the plugin's code instead of being turned into
      an error reply. The fields carry what the exception message is formatted from. */
  datatype Thrown =
    | HandleAlreadyExists(handle: int)       // "Object for handle already exists: <handle>"
    | HandleDoesNotExist(handle: int)        // "Object for handle does not exists: <handle>"
    | NoImageType(imageType: Option<string>) // "No image type for: <type>"
    | NotAMode(mode: Value)                  // "Not a mode:<mode>"
    | NullPointer                            // a missing value was unboxed or dereferenced
    | ClassCast                              // a value of the wrong type was cast
    | Unchecked(message: string)             // any other unchecked exception from the engine

  /** The reply to one method call: exactly one of these is delivered per call.
      `Done` is the channel's `success(value)`. */
  datatype Response =
    | Done(value: Value)
    | Error(code: string, message: string)
    | NotImplemented
    | Fatal(thrown: Thrown)

  /** Reading a key of a Java map: an absent key reads as null. */
  function Lookup(args: Args, key: string): (v: Value)
    ensures key !in args ==> v == Null
    ensures key in args ==> v == args[key]
  {
    if key in args then args[key] else Null
  }

  /** The exception a failed cast of `v` raises: unboxing null is a null
      dereference, anything else of the wrong type is a bad cast. */
  function CastFailure(v: Value): (t: Thrown)
    ensures t == NullPointer || t == ClassCast
    ensures t == NullPointer <==> v == Null
  {
    if v == Null then NullPointer else ClassCast
  }

  /** `args[key]` used as a (non-null) `Boolean`. */
  function ReadBool(args: Args, key: string): (r: Result<bool, Thrown>)
    ensures r.Success? <==> Lookup(args, key).Bool?
    ensures r.Success? ==> Lookup(args, key) == Bool(r.value)
    ensures r.Failure? ==> r.error == CastFailure(Lookup(args, key))
  {
    match Lookup(args, key)
    case Bool(b) => Success(b)
    case v => Failure(CastFailure(v))
  }

  /** `args[key] as Double` followed by a use of the number. */
  function ReadDouble(args: Args, key: string): (r: Result<real, Thrown>)
    ensures r.Success? <==> Lookup(args, key).Double?
    ensures r.Success? ==> Lookup(args, key) == Double(r.value)
    ensures r.Failure? ==> r.error == CastFailure(Lookup(args, key))
  {
    match Lookup(args, key)
    case Double(d) => Success(d)
    case v => Failure(CastFailure(v))
  }

  /** `args[key] as Int`: a number beyond the 32-bit range arrives as a `Long`
      and fails the cast. */
  function ReadInt(args: Args, key: string): (r: Result<int, Thrown>)
    ensures r.Success? <==> Lookup(args, key).Integer? && IsInt32(Lookup(args, key).i)
    ensures r.Success? ==> Lookup(args, key) == Integer(r.value)
    ensures r.Failure? ==> r.error == CastFailure(Lookup(args, key))
  {
    match Lookup(args, key)
    case Integer(i) => if IsInt32(i) then Success(i) else Failure(ClassCast)
    case v => Failure(CastFailure(v))
  }
}

=== FILE: face_detection.dfy ===
/** The face detector variant: parsing its untyped construction options into an
    engine configuration, and shaping the engine's faces into channel values. */
module FaceDetection {
  import opened Wrappers
  import opened Channel

  // ---------------------------------------------------------------------------
  // Engine configuration
  // ---------------------------------------------------------------------------

  /** The ALL / NONE setting of classification, landmark and contour detection. */
  datatype DetailMode = ModeAll | ModeNone

  datatype PerformanceMode = Accurate | Fast

  /** The engine configuration the detector is built with. */
  datatype Config = Config(
    classification: DetailMode,
    landmarks: DetailMode,
    contours: DetailMode,
    minFaceSize: real,
    performance: PerformanceMode,
    tracking: bool)

  function Detail(enabled: bool): DetailMode {
    if enabled then ModeAll else ModeNone
  }

  /** The option key each configuration entry is read from. */
  const ClassificationKey := "enableClassification"
  const LandmarksKey := "enableLandmarks"
  const ContoursKey := "enableContours"
  const ModeKey := "mode"
  const MinFaceSizeKey := "minFaceSize"
  const TrackingKey := "enableTracking"

  /** Options a detector can be built from: every switch a boolean, a known
      mode string and a floating-point minimum face size. */
  predicate ValidOptions(options: Args) {
    && Lookup(options, ClassificationKey).Bool?
    && Lookup(options, LandmarksKey).Bool?
    && Lookup(options, ContoursKey).Bool?
    && Lookup(options, ModeKey) in {Str("accurate"), Str("fast")}
    && Lookup(options, MinFaceSizeKey).Double?
    && Lookup(options, TrackingKey).Bool?
  }

  function ParsePerformance(mode: Value): (r: Result<PerformanceMode, Thrown>)
    ensures r == Success(Accurate) <==> mode == Str("accurate")
    ensures r == Success(Fast) <==> mode == Str("fast")
    ensures r.Failure? ==> r.error == NotAMode(mode)
  {
    if mode == Str("accurate") then Success(Accurate)
    else if mode == Str("fast") then Success(Fast)
    else Failure(NotAMode(mode))
  }

  /** Builds the engine configuration from the options map, reading the entries
      in the order the detector's constructor does; the first bad entry throws. */
  function ParseOptions(options: Args): (r: Result<Config, Thrown>)
    ensures r.Success? <==> ValidOptions(options)
    ensures r.Success? ==>
      && (r.value.classification == ModeAll <==> options[ClassificationKey] == Bool(true))
      && (r.value.landmarks == ModeAll <==> options[LandmarksKey] == Bool(true))
      && (r.value.contours == ModeAll <==> options[ContoursKey] == Bool(true))
      && (r.value.performance == Accurate <==> options[ModeKey] == Str("accurate"))
      && (r.value.performance == Fast <==> options[ModeKey] == Str("fast"))
      && options[MinFaceSizeKey] == Double(r.value.minFaceSize)
      && (r.value.tracking <==> options[TrackingKey] == Bool(true))
    // the three detail switches are read before the mode, so a bad mode is
    // reported only when they are well typed
    ensures
      && Lookup(options, ClassificationKey).Bool?
      && Lookup(options, LandmarksKey).Bool?
      && Lookup(options, ContoursKey).Bool?
      && Lookup(options, ModeKey) !in {Str("accurate"), Str("fast")}
      ==> r == Failure(NotAMode(Lookup(options, ModeKey)))
  {
    var classification :- ReadBool(options, ClassificationKey);
    var landmarks :- ReadBool(options, LandmarksKey);
    var contours :- ReadBool(options, ContoursKey);
    var performance :- ParsePerformance(Lookup(options, ModeKey));
    var minFaceSize :- ReadDouble(options, MinFaceSizeKey);
    var tracking :- ReadBool(options, TrackingKey);
    Success(Config(Detail(classification), Detail(landmarks), Detail(contours),
                   minFaceSize, performance, tracking))
  }

  // ---------------------------------------------------------------------------
  // What the engine reports
  // ---------------------------------------------------------------------------

  datatype Point = Point(x: real, y: real)

  /** An integer bounding box; its width is `right - left`, its height
      `bottom - top`, both computed in 32-bit arithmetic. */
  datatype Rect = Rect(left: Int32, top: Int32, right: Int32, bottom: Int32)

  datatype LandmarkType =
    | MouthBottom | LeftCheek | LeftEar | LeftEye | MouthLeft
    | NoseBase | RightCheek | RightEar | RightEye | MouthRight

  datatype ContourType =
    | FaceOval | LeftEyeContour | LeftEyebrowBottom | LeftEyebrowTop
    | LowerLipBottom | LowerLipTop | NoseBottom | NoseBridge | RightEyeContour
    | RightEyebrowBottom | RightEyebrowTop | UpperLipBottom | UpperLipTop

  datatype Contour = Contour(kind: ContourType, points: seq<Point>)

  /** One face found by the engine. Absent optional values are `None`; the
      contour list is what the engine reports as all of the face's contours. */
  datatype Face = Face(
    box: Rect,
    eulerY: real,
    eulerZ: real,
    smiling: Option<real>,
    leftEyeOpen: Option<real>,
    rightEyeOpen: Option<real>,
    trackingId: Option<Int32>,
    landmarks: map<LandmarkType, Point>,
    contours: seq<Contour>)

  /** How a detection call ends: the faces found, the engine's failure message
      delivered to the failure listener, or an exception `process` itself throws
      before any listener is attached (on a null image, say). */
  datatype EngineOutcome =
    | Found(faces: seq<Face>)
    | EngineFailed(message: string)
    | ProcessThrew(thrown: Thrown)

  // ---------------------------------------------------------------------------
  // Result shaping
  // ---------------------------------------------------------------------------

  function Coords(p: Point): Value {
    Pair(p.x, p.y)
  }

  /** `v` is a list holding the coordinates of `points`, in order. */
  ghost predicate Traces(v: Value, points: seq<Point>) {
    && v.List?
    && |v.items| == |points|
    && forall i :: 0 <= i < |points| ==> v.items[i] == Coords(points[i])
  }

  /** The points of a contour as channel values. */
  function CoordsList(points: seq<Point>): (r: seq<Value>)
    ensures Traces(List(r), points)
  {
    if points == [] then [] else [Coords(points[0])] + CoordsList(points[1..])
  }

  /** The engine keeps one contour per kind, so no two contours of a face share
      a kind. */
  predicate DistinctContourKinds(contours: seq<Contour>) {
    forall i, j :: 0 <= i < j < |contours| ==> contours[i].kind != contours[j].kind
  }

  /** The first contour of the given kind, if the face has one. */
  function FindContour(contours: seq<Contour>, kind: ContourType): (r: Option<Contour>)
    ensures r.None? <==> forall i :: 0 <= i < |contours| ==> contours[i].kind != kind
    ensures r.Some? ==> exists i :: 0 <= i < |contours| && contours[i] == r.value
                                    && forall j :: 0 <= j < i ==> contours[j].kind != kind
    ensures r.Some? ==> r.value.kind == kind
  {
    if contours == [] then None
    else if contours[0].kind == kind then Some(contours[0])
    else
      var rest := FindContour(contours[1..], kind);
      if rest.Some? then
        ghost var i :| 0 <= i < |contours[1..]| && contours[1..][i] == rest.value
                       && forall j :: 0 <= j < i ==> contours[1..][j].kind != kind;
        assert contours[i + 1] == rest.value;
        rest
      else rest
  }

  /** On a face whose contours have distinct kinds, looking a kind up finds the
      one contour of that kind. */
  lemma FindContourUnique(contours: seq<Contour>, i: int)
    requires DistinctContourKinds(contours)
    requires 0 <= i < |contours|
    ensures FindContour(contours, contours[i].kind) == Some(contours[i])
  {
    var found := FindContour(contours, contours[i].kind);
    var k :| 0 <= k < |contours| && contours[k] == found.value
             && forall j :: 0 <= j < k ==> contours[j].kind != contours[i].kind;
    if k < i {
      assert contours[k].kind != contours[i].kind;
    }
  }

  /** The number of points over all contours. */
  function TotalPoints(contours: seq<Contour>): nat {
    if contours == [] then 0 else |contours[0].points| + TotalPoints(contours[1..])
  }

  /** The points of every contour, one contour after another, whatever the
      contour's kind. */
  function AllContourPoints(contours: seq<Contour>): (r: seq<Value>)
    ensures |r| == TotalPoints(contours)
  {
    if contours == [] then []
    else CoordsList(contours[0].points) + AllContourPoints(contours[1..])
  }

  /** The position of a landmark, or null when the face lacks it. */
  function LandmarkPosition(face: Face, kind: LandmarkType): (v: Value)
    ensures v == Null <==> kind !in face.landmarks
    ensures kind in face.landmarks ==> v == Pair(face.landmarks[kind].x, face.landmarks[kind].y)
  {
    if kind in face.landmarks then Coords(face.landmarks[kind]) else Null
  }

  /** The points of a contour, or null when the face lacks it. */
  function ContourPosition(face: Face, kind: ContourType): (v: Value)
    ensures v == Null <==> FindContour(face.contours, kind).None?
    ensures v != Null ==> Traces(v, FindContour(face.contours, kind).value.points)
  {
    match FindContour(face.contours, kind)
    case None => Null
    case Some(contour) => List(CoordsList(contour.points))
  }

  /** The key under which each landmark is reported. */
  function LandmarkKey(kind: LandmarkType): string {
    match kind
    case MouthBottom => "bottomMouth"
    case LeftCheek => "leftCheek"
    case LeftEar => "leftEar"
    case LeftEye => "leftEye"
    case MouthLeft => "leftMouth"
    case NoseBase => "noseBase"
    case RightCheek => "rightCheek"
    case RightEar => "rightEar"
    case RightEye => "rightEye"
    case MouthRight => "rightMouth"
  }

  /** The key under which each contour is reported. */
  function ContourKey(kind: ContourType): string {
    match kind
    case FaceOval => "face"
    case LeftEyeContour => "leftEye"
    case LeftEyebrowBottom => "leftEyebrowBottom"
    case LeftEyebrowTop => "leftEyebrowTop"
    case LowerLipBottom => "lowerLipBottom"
    case LowerLipTop => "lowerLipTop"
    case NoseBottom => "noseBottom"
    case NoseBridge => "noseBridge"
    case RightEyeContour => "rightEye"
    case RightEyebrowBottom => "rightEyebrowBottom"
    case RightEyebrowTop => "rightEyebrowTop"
    case UpperLipBottom => "upperLipBottom"
    case UpperLipTop => "upperLipTop"
  }

  const AllPointsKey := "allPoints"

  /** Distinct landmarks are reported under distinct keys. */
  lemma LandmarkKeysDistinct()
    ensures forall a: LandmarkType, b: LandmarkType :: LandmarkKey(a) == LandmarkKey(b) ==> a == b
  {
  }

  /** Distinct contours are reported under distinct keys, none of them `allPoints`. */
  lemma ContourKeysDistinct()
    ensures forall a: ContourType, b: ContourType :: ContourKey(a) == ContourKey(b) ==> a == b
    ensures forall a: ContourType :: ContourKey(a) != AllPointsKey
  {
  }

  /** The record built by putting, for each `k` in turn, `value(k)` under
      `key(k)` when there is a value, and nothing otherwise. */
  function PutPresent<K>(kinds: seq<K>, key: K -> string, value: K -> Option<Value>): map<string, Value>
    decreases |kinds|
  {
    if kinds == [] then map[]
    else
      var last := kinds[|kinds| - 1];
      var before := PutPresent(kinds[..|kinds| - 1], key, value);
      if value(last).Some? then before[key(last) := value(last).value] else before
  }

  /** The record's keys are the keys of the listed kinds that have a value. */
  lemma {:induction false} PutPresentKeys<K>(kinds: seq<K>, key: K -> string, value: K -> Option<Value>)
    ensures forall s :: s in PutPresent(kinds, key, value) <==>
              exists k :: k in kinds && value(k).Some? && s == key(k)
    decreases |kinds|
  {
    if kinds != [] {
      var last := kinds[|kinds| - 1];
      assert kinds == kinds[..|kinds| - 1] + [last];
      PutPresentKeys(kinds[..|kinds| - 1], key, value);
    }
  }

  /** With distinct keys, a listed kind's entry is present exactly when it has a
      value, and then holds that value. */
  lemma {:induction false} PutPresentEntry<K>(kinds: seq<K>, key: K -> string, value: K -> Option<Value>, k: K)
    requires k in kinds
    requires forall a, b :: key(a) == key(b) ==> a == b
    ensures key(k) in PutPresent(kinds, key, value) <==> value(k).Some?
    ensures value(k).Some? ==> PutPresent(kinds, key, value)[key(k)] == value(k).value
    decreases |kinds|
  {
    var last := kinds[|kinds| - 1];
    assert kinds == kinds[..|kinds| - 1] + [last];
    if k != last {
      PutPresentEntry(kinds[..|kinds| - 1], key, value, k);
    } else {
      PutPresentKeys(kinds[..|kinds| - 1], key, value);
    }
  }

  /** The landmarks in the order their entries are put. */
  const LandmarkOrder: seq<LandmarkType> :=
    [MouthBottom, LeftCheek, LeftEar, LeftEye, MouthLeft,
     NoseBase, RightCheek, RightEar, RightEye, MouthRight]

  /** Every landmark kind is put. */
  lemma LandmarkOrderComplete(kind: LandmarkType)
    ensures kind in LandmarkOrder
  {
    match kind
    case MouthBottom => assert LandmarkOrder[0] == kind;
    case LeftCheek => assert LandmarkOrder[1] == kind;
    case LeftEar => assert LandmarkOrder[2] == kind;
    case LeftEye => assert LandmarkOrder[3] == kind;
    case MouthLeft => assert LandmarkOrder[4] == kind;
    case NoseBase => assert LandmarkOrder[5] == kind;
    case RightCheek => assert LandmarkOrder[6] == kind;
    case RightEar => assert LandmarkOrder[7] == kind;
    case RightEye => assert LandmarkOrder[8] == kind;
    case MouthRight => assert LandmarkOrder[9] == kind;
  }

  /** The named contours in the order their entries are put. */
  const ContourOrder: seq<ContourType> :=
    [FaceOval, LeftEyeContour, LeftEyebrowBottom, LeftEyebrowTop, LowerLipBottom,
     LowerLipTop, NoseBottom, NoseBridge, RightEyeContour, RightEyebrowBottom,
     RightEyebrowTop, UpperLipBottom, UpperLipTop]

  /** Every contour kind is put. */
  lemma ContourOrderComplete(kind: ContourType)
    ensures kind in ContourOrder
  {
    match kind
    case FaceOval => assert ContourOrder[0] == kind;
    case LeftEyeContour => assert ContourOrder[1] == kind;
    case LeftEyebrowBottom => assert ContourOrder[2] == kind;
    case LeftEyebrowTop => assert ContourOrder[3] == kind;
    case LowerLipBottom => assert ContourOrder[4] == kind;
    case LowerLipTop => assert ContourOrder[5] == kind;
    case NoseBottom => assert ContourOrder[6] == kind;
    case NoseBridge => assert ContourOrder[7] == kind;
    case RightEyeContour => assert ContourOrder[8] == kind;
    case RightEyebrowBottom => assert ContourOrder[9] == kind;
    case RightEyebrowTop => assert ContourOrder[10] == kind;
    case UpperLipBottom => assert ContourOrder[11] == kind;
    case UpperLipTop => assert ContourOrder[12] == kind;
  }

  /** Putting every landmark's position under its key gives one entry per
      landmark, holding that position. */
  lemma LandmarkEntries(face: Face)
    ensures var data := PutPresent(LandmarkOrder, LandmarkKey, kind => Some(LandmarkPosition(face, kind)));
      && (forall key :: key in data <==> exists kind: LandmarkType :: key == LandmarkKey(kind))
      && (forall kind: LandmarkType :: LandmarkKey(kind) in data && data[LandmarkKey(kind)] == LandmarkPosition(face, kind))
  {
    var data := PutPresent(LandmarkOrder, LandmarkKey, kind => Some(LandmarkPosition(face, kind)));
    LandmarkKeysDistinct();
    PutPresentKeys(LandmarkOrder, LandmarkKey, kind => Some(LandmarkPosition(face, kind)));
    forall kind: LandmarkType
      ensures LandmarkKey(kind) in data
      ensures data[LandmarkKey(kind)] == LandmarkPosition(face, kind)
    {
      LandmarkOrderComplete(kind);
      PutPresentEntry(LandmarkOrder, LandmarkKey, kind => Some(LandmarkPosition(face, kind)), kind);
    }
  }

  /** Putting every named contour's points under its key gives one entry per
      contour kind, holding those points. */
  lemma ContourEntries(face: Face)
    ensures var data := PutPresent(ContourOrder, ContourKey, kind => Some(ContourPosition(face, kind)));
      && (forall key :: key in data <==> exists kind: ContourType :: key == ContourKey(kind))
      && (forall kind: ContourType :: ContourKey(kind) in data && data[ContourKey(kind)] == ContourPosition(face, kind))
  {
    var data := PutPresent(ContourOrder, ContourKey, kind => Some(ContourPosition(face, kind)));
    ContourKeysDistinct();
    PutPresentKeys(ContourOrder, ContourKey, kind => Some(ContourPosition(face, kind)));
    forall kind: ContourType
      ensures ContourKey(kind) in data
      ensures data[ContourKey(kind)] == ContourPosition(face, kind)
    {
      ContourOrderComplete(kind);
      PutPresentEntry(ContourOrder, ContourKey, kind => Some(ContourPosition(face, kind)), kind);
    }
  }

  /** The landmarks record: exactly one key per landmark, valued at the
      landmark's position, or null when the face lacks it. */
  function LandmarkData(face: Face): (r: map<string, Value>)
    ensures forall key :: key in r <==> exists kind: LandmarkType :: key == LandmarkKey(kind)
    ensures forall kind: LandmarkType :: LandmarkKey(kind) in r
    ensures forall kind: LandmarkType :: kind !in face.landmarks ==> r[LandmarkKey(kind)] == Null
    ensures forall kind: LandmarkType :: kind in face.landmarks ==>
              r[LandmarkKey(kind)] == Pair(face.landmarks[kind].x, face.landmarks[kind].y)
  {
    LandmarkEntries(face);
    PutPresent(LandmarkOrder, LandmarkKey, kind => Some(LandmarkPosition(face, kind)))
  }

  /** The contours record: `allPoints` holding the aggregate, plus one key per
      named contour, null exactly when the face lacks that contour and
      otherwise listing its points with the same length and order. */
  function ContourData(face: Face): (r: map<string, Value>)
    ensures forall key :: key in r <==> key == AllPointsKey || exists kind: ContourType :: key == ContourKey(kind)
    ensures AllPointsKey in r && r[AllPointsKey] == List(AllContourPoints(face.contours))
    ensures forall kind: ContourType :: ContourKey(kind) in r
    ensures forall kind: ContourType :: r[ContourKey(kind)] == Null <==> FindContour(face.contours, kind).None?
    ensures forall kind: ContourType :: r[ContourKey(kind)] != Null ==>
              Traces(r[ContourKey(kind)], FindContour(face.contours, kind).value.points)
  {
    var named := PutPresent(ContourOrder, ContourKey, kind => Some(ContourPosition(face, kind)));
    ContourEntries(face);
    ContourKeysDistinct();
    assert AllPointsKey !in named;
    map[AllPointsKey := List(AllContourPoints(face.contours))] + named
  }

  /** The entries of a face record. */
  datatype Field =
    | Left | Top | Width | Height | HeadEulerAngleY | HeadEulerAngleZ
    | SmilingProbability | LeftEyeOpenProbability | RightEyeOpenProbability | TrackingId
    | Landmarks | Contours

  function FieldKey(field: Field): string {
    match field
    case Left => "left"
    case Top => "top"
    case Width => "width"
    case Height => "height"
    case HeadEulerAngleY => "headEulerAngleY"
    case HeadEulerAngleZ => "headEulerAngleZ"
    case SmilingProbability => "smilingProbability"
    case LeftEyeOpenProbability => "leftEyeOpenProbability"
    case RightEyeOpenProbability => "rightEyeOpenProbability"
    case TrackingId => "trackingId"
    case Landmarks => "landmarks"
    case Contours => "contours"
  }

  lemma FieldKeysDistinct()
    ensures forall a: Field, b: Field :: FieldKey(a) == FieldKey(b) ==> a == b
  {
  }

  /** The fields in the order they are put. */
  const FieldOrder: seq<Field> :=
    [Left, Top, Width, Height, HeadEulerAngleY, HeadEulerAngleZ, SmilingProbability,
     LeftEyeOpenProbability, RightEyeOpenProbability, TrackingId, Landmarks, Contours]

  lemma FieldOrderComplete(field: Field)
    ensures field in FieldOrder
  {
    match field
    case Left => assert FieldOrder[0] == field;
    case Top => assert FieldOrder[1] == field;
    case Width => assert FieldOrder[2] == field;
    case Height => assert FieldOrder[3] == field;
    case HeadEulerAngleY => assert FieldOrder[4] == field;
    case HeadEulerAngleZ => assert FieldOrder[5] == field;
    case SmilingProbability => assert FieldOrder[6] == field;
    case LeftEyeOpenProbability => assert FieldOrder[7] == field;
    case RightEyeOpenProbability => assert FieldOrder[8] == field;
    case TrackingId => assert FieldOrder[9] == field;
    case Landmarks => assert FieldOrder[10] == field;
    case Contours => assert FieldOrder[11] == field;
  }

  function DoubleOf(v: Option<real>): Option<Value> {
    if v.Some? then Some(Double(v.value)) else None
  }

  function IntegerOf(v: Option<int>): Option<Value> {
    if v.Some? then Some(Integer(v.value)) else None
  }

  /** What a face supplies for each field, given its landmarks and contours
      records. Only the probabilities and the tracking id may be missing, and
      nothing supplied is null. The box entries are the integer box widened
      to a double, width and height computed in 32-bit arithmetic. */
  function FieldValue(face: Face, landmarks: map<string, Value>, contours: map<string, Value>, field: Field): (r: Option<Value>)
    ensures r.Some? ==> r.value != Null
    ensures r.None? <==>
      || (field == SmilingProbability && face.smiling.None?)
      || (field == LeftEyeOpenProbability && face.leftEyeOpen.None?)
      || (field == RightEyeOpenProbability && face.rightEyeOpen.None?)
      || (field == TrackingId && face.trackingId.None?)
  {
    match field
    case Left => Some(Double(face.box.left as real))
    case Top => Some(Double(face.box.top as real))
    case Width => Some(Double(Sub32(face.box.right, face.box.left) as real))
    case Height => Some(Double(Sub32(face.box.bottom, face.box.top) as real))
    case HeadEulerAngleY => Some(Double(face.eulerY))
    case HeadEulerAngleZ => Some(Double(face.eulerZ))
    case SmilingProbability => DoubleOf(face.smiling)
    case LeftEyeOpenProbability => DoubleOf(face.leftEyeOpen)
    case RightEyeOpenProbability => DoubleOf(face.rightEyeOpen)
    case TrackingId => IntegerOf(face.trackingId)
    case Landmarks => Some(Dict(landmarks))
    case Contours => Some(Dict(contours))
  }

  /** Putting each supplied field under its key gives an entry exactly for the
      supplied fields, holding what the face supplies. */
  lemma FieldEntries(face: Face, landmarks: map<string, Value>, contours: map<string, Value>)
    ensures var data := PutPresent(FieldOrder, FieldKey, field => FieldValue(face, landmarks, contours, field));
      && (forall field: Field :: FieldKey(field) in data <==> FieldValue(face, landmarks, contours, field).Some?)
      && (forall field: Field :: FieldKey(field) in data ==>
            data[FieldKey(field)] == FieldValue(face, landmarks, contours, field).value)
      && (forall key :: key in data ==> exists field: Field :: key == FieldKey(field))
  {
    var data := PutPresent(FieldOrder, FieldKey, field => FieldValue(face, landmarks, contours, field));
    FieldKeysDistinct();
    PutPresentKeys(FieldOrder, FieldKey, field => FieldValue(face, landmarks, contours, field));
    forall field: Field
      ensures FieldKey(field) in data <==> FieldValue(face, landmarks, contours, field).Some?
      ensures FieldKey(field) in data ==> data[FieldKey(field)] == FieldValue(face, landmarks, contours, field).value
    {
      FieldOrderComplete(field);
      PutPresentEntry(FieldOrder, FieldKey, field => FieldValue(face, landmarks, contours, field), field);
    }
  }

  /** Each field a face supplies, under its key: a field's key is present
      exactly when the face supplies it, and then holds what it supplies. */
  function Record(face: Face, landmarks: map<string, Value>, contours: map<string, Value>): (r: map<string, Value>)
    ensures forall field: Field {:trigger FieldValue(face, landmarks, contours, field)} ::
              FieldKey(field) in r <==> FieldValue(face, landmarks, contours, field).Some?
    ensures forall field: Field {:trigger FieldValue(face, landmarks, contours, field)} ::
              FieldKey(field) in r ==> r[FieldKey(field)] == FieldValue(face, landmarks, contours, field).value
  {
    FieldEntries(face, landmarks, contours);
    PutPresent(FieldOrder, FieldKey, field => FieldValue(face, landmarks, contours, field))
  }

  /** A record has no keys beyond those of the fields. */
  lemma RecordKeysAreFields(face: Face, landmarks: map<string, Value>, contours: map<string, Value>)
    ensures forall key :: key in Record(face, landmarks, contours) ==> exists field: Field :: key == FieldKey(field)
  {
    FieldEntries(face, landmarks, contours);
  }

  /** The record reported for one face: a key only for a field the face
      supplies, and never a null value. */
  function FaceRecord(face: Face): (r: map<string, Value>)
    ensures forall key :: key in r <==> exists field: Field ::
              key == FieldKey(field) && FieldValue(face, LandmarkData(face), ContourData(face), field).Some?
    ensures forall key :: key in r ==> r[key] != Null
  {
    RecordKeysAreFields(face, LandmarkData(face), ContourData(face));
    Record(face, LandmarkData(face), ContourData(face))
  }

  /** In any record, the probabilities and the tracking id appear exactly when
      the engine supplied them, with the supplied value. */
  lemma RecordOptionalFields(face: Face, landmarks: map<string, Value>, contours: map<string, Value>)
    ensures var r := Record(face, landmarks, contours);
      && (FieldKey(SmilingProbability) in r <==> face.smiling.Some?)
      && (FieldKey(LeftEyeOpenProbability) in r <==> face.leftEyeOpen.Some?)
      && (FieldKey(RightEyeOpenProbability) in r <==> face.rightEyeOpen.Some?)
      && (FieldKey(TrackingId) in r <==> face.trackingId.Some?)
      && (face.smiling.Some? ==> r[FieldKey(SmilingProbability)] == Double(face.smiling.value))
      && (face.leftEyeOpen.Some? ==> r[FieldKey(LeftEyeOpenProbability)] == Double(face.leftEyeOpen.value))
      && (face.rightEyeOpen.Some? ==> r[FieldKey(RightEyeOpenProbability)] == Double(face.rightEyeOpen.value))
      && (face.trackingId.Some? ==> r[FieldKey(TrackingId)] == Integer(face.trackingId.value))
  {
    var r := Record(face, landmarks, contours);
    assert FieldKey(SmilingProbability) in r <==> FieldValue(face, landmarks, contours, SmilingProbability).Some?;
    assert FieldKey(LeftEyeOpenProbability) in r <==> FieldValue(face, landmarks, contours, LeftEyeOpenProbability).Some?;
    assert FieldKey(RightEyeOpenProbability) in r <==> FieldValue(face, landmarks, contours, RightEyeOpenProbability).Some?;
    assert FieldKey(TrackingId) in r <==> FieldValue(face, landmarks, contours, TrackingId).Some?;
  }

  /** The probabilities and the tracking id appear exactly when the engine
      supplied them, with the supplied value. */
  lemma FaceRecordOptional(face: Face)
    ensures FieldKey(SmilingProbability) in FaceRecord(face) <==> face.smiling.Some?
    ensures FieldKey(LeftEyeOpenProbability) in FaceRecord(face) <==> face.leftEyeOpen.Some?
    ensures FieldKey(RightEyeOpenProbability) in FaceRecord(face) <==> face.rightEyeOpen.Some?
    ensures FieldKey(TrackingId) in FaceRecord(face) <==> face.trackingId.Some?
    ensures face.smiling.Some? ==>
              FaceRecord(face)[FieldKey(SmilingProbability)] == Double(face.smiling.value)
    ensures face.leftEyeOpen.Some? ==>
              FaceRecord(face)[FieldKey(LeftEyeOpenProbability)] == Double(face.leftEyeOpen.value)
    ensures face.rightEyeOpen.Some? ==>
              FaceRecord(face)[FieldKey(RightEyeOpenProbability)] == Double(face.rightEyeOpen.value)
    ensures face.trackingId.Some? ==>
              FaceRecord(face)[FieldKey(TrackingId)] == Integer(face.trackingId.value)
  {
    RecordOptionalFields(face, LandmarkData(face), ContourData(face));
  }

  /** Every record carries the box and the pose. */
  lemma RecordFixedFields(face: Face, landmarks: map<string, Value>, contours: map<string, Value>)
    ensures var r := Record(face, landmarks, contours);
      && FieldKey(Left) in r && r[FieldKey(Left)] == Double(face.box.left as real)
      && FieldKey(Top) in r && r[FieldKey(Top)] == Double(face.box.top as real)
      && FieldKey(Width) in r && r[FieldKey(Width)] == Double(Sub32(face.box.right, face.box.left) as real)
      && FieldKey(Height) in r && r[FieldKey(Height)] == Double(Sub32(face.box.bottom, face.box.top) as real)
      && FieldKey(HeadEulerAngleY) in r && r[FieldKey(HeadEulerAngleY)] == Double(face.eulerY)
      && FieldKey(HeadEulerAngleZ) in r && r[FieldKey(HeadEulerAngleZ)] == Double(face.eulerZ)
  {
    assert FieldValue(face, landmarks, contours, Left).Some?;
    assert FieldValue(face, landmarks, contours, Top).Some?;
    assert FieldValue(face, landmarks, contours, Width).Some?;
    assert FieldValue(face, landmarks, contours, Height).Some?;
    assert FieldValue(face, landmarks, contours, HeadEulerAngleY).Some?;
    assert FieldValue(face, landmarks, contours, HeadEulerAngleZ).Some?;
  }

  /** Every record carries the two sub-records it is given. */
  lemma RecordSubRecords(face: Face, landmarks: map<string, Value>, contours: map<string, Value>)
    ensures var r := Record(face, landmarks, contours);
      && FieldKey(Landmarks) in r && r[FieldKey(Landmarks)] == Dict(landmarks)
      && FieldKey(Contours) in r && r[FieldKey(Contours)] == Dict(contours)
  {
    assert FieldValue(face, landmarks, contours, Landmarks).Some?;
    assert FieldValue(face, landmarks, contours, Contours).Some?;
  }

  /** Every face record carries the box and the pose. */
  lemma FaceRecordValues(face: Face)
    ensures FieldKey(Left) in FaceRecord(face) && FaceRecord(face)[FieldKey(Left)] == Double(face.box.left as real)
    ensures FieldKey(Top) in FaceRecord(face) && FaceRecord(face)[FieldKey(Top)] == Double(face.box.top as real)
    ensures FieldKey(Width) in FaceRecord(face)
    ensures FaceRecord(face)[FieldKey(Width)] == Double(Sub32(face.box.right, face.box.left) as real)
    ensures FieldKey(Height) in FaceRecord(face)
    ensures FaceRecord(face)[FieldKey(Height)] == Double(Sub32(face.box.bottom, face.box.top) as real)
    ensures FieldKey(HeadEulerAngleY) in FaceRecord(face)
    ensures FaceRecord(face)[FieldKey(HeadEulerAngleY)] == Double(face.eulerY)
    ensures FieldKey(HeadEulerAngleZ) in FaceRecord(face)
    ensures FaceRecord(face)[FieldKey(HeadEulerAngleZ)] == Double(face.eulerZ)
  {
    RecordFixedFields(face, LandmarkData(face), ContourData(face));
  }

  /** Every face record carries the landmarks and contours sub-records. */
  lemma FaceRecordSubRecords(face: Face)
    ensures FieldKey(Landmarks) in FaceRecord(face)
    ensures FaceRecord(face)[FieldKey(Landmarks)] == Dict(LandmarkData(face))
    ensures FieldKey(Contours) in FaceRecord(face)
    ensures FaceRecord(face)[FieldKey(Contours)] == Dict(ContourData(face))
  {
    RecordSubRecords(face, LandmarkData(face), ContourData(face));
  }

  /** `f` applied to each element of `s`, in order. */
  function MapSeq<A, B>(f: A -> B, s: seq<A>): (r: seq<B>)
    ensures |r| == |s|
    ensures forall i :: 0 <= i < |s| ==> r[i] == f(s[i])
  {
    if s == [] then [] else [f(s[0])] + MapSeq(f, s[1..])
  }

  /** One record per face, in the engine's order. */
  function FaceRecords(faces: seq<Face>): (r: seq<Value>)
    ensures |r| == |faces|
    ensures forall i :: 0 <= i < |faces| ==> r[i] == Dict(FaceRecord(faces[i]))
  {
    MapSeq(face => Dict(FaceRecord(face)), faces)
  }

  /** The reply for a detection: the face records on success, the detector's
      error code and the engine's message on failure, and the exception itself
      when `process` throws. */
  function DetectionReply(outcome: EngineOutcome): (r: Response)
    ensures outcome.Found? ==> r.Done? && r.value.List? && |r.value.items| == |outcome.faces|
    ensures outcome.Found? ==> forall i :: 0 <= i < |outcome.faces| ==>
              r.value.items[i] == Dict(FaceRecord(outcome.faces[i]))
    ensures outcome.EngineFailed? ==> r == Error("faceDetectorError", outcome.message)
    ensures outcome.ProcessThrew? ==> r == Fatal(outcome.thrown)
  {
    match outcome
    case Found(faces) => Done(List(FaceRecords(faces)))
    case EngineFailed(message) => Error("faceDetectorError", message)
    case ProcessThrew(thrown) => Fatal(thrown)
  }

  // ---------------------------------------------------------------------------
  // The all-points aggregate
  // ---------------------------------------------------------------------------

  /** Collecting the points of two runs of contours is collecting each in turn. */
  lemma {:induction false} AllContourPointsAppend(a: seq<Contour>, b: seq<Contour>)
    ensures AllContourPoints(a + b) == AllContourPoints(a) + AllContourPoints(b)
    ensures TotalPoints(a + b) == TotalPoints(a) + TotalPoints(b)
    decreases |a|
  {
    if a == [] {
      assert a + b == b;
    } else {
      assert (a + b)[1..] == a[1..] + b;
      AllContourPointsAppend(a[1..], b);
    }
  }

  /** Point `j` of contour `k` sits in the aggregate right after the points of
      the contours before `k`. */
  lemma AllContourPointsAt(contours: seq<Contour>, k: int, j: int)
    requires 0 <= k < |contours|
    requires 0 <= j < |contours[k].points|
    ensures TotalPoints(contours[..k]) + j < TotalPoints(contours)
    ensures AllContourPoints(contours)[TotalPoints(contours[..k]) + j] == Coords(contours[k].points[j])
  {
    assert contours == contours[..k] + ([contours[k]] + contours[k + 1..]);
    AllContourPointsAppend(contours[..k], [contours[k]] + contours[k + 1..]);
    AllContourPointsAppend([contours[k]], contours[k + 1..]);
    assert [contours[k]][1..] == [];
  }

  /** Extending a run of points by one extends its coordinates by one. */
  lemma CoordsListSnoc(points: seq<Point>, j: int)
    requires 0 <= j < |points|
    ensures CoordsList(points[..j + 1]) == CoordsList(points[..j]) + [Coords(points[j])]
  {
    var a := CoordsList(points[..j + 1]);
    var b := CoordsList(points[..j]) + [Coords(points[j])];
    assert |a| == |b|;
    forall i | 0 <= i < |a| ensures a[i] == b[i] {
    }
  }

  /** Gathering one more contour appends its points to the aggregate. */
  lemma AllContourPointsSnoc(contours: seq<Contour>, i: int)
    requires 0 <= i < |contours|
    ensures AllContourPoints(contours[..i + 1]) == AllContourPoints(contours[..i]) + CoordsList(contours[i].points)
  {
    assert contours[..i + 1] == contours[..i] + [contours[i]];
    AllContourPointsAppend(contours[..i], [contours[i]]);
    assert [contours[i]][1..] == [];
  }

  /** The nested loop that gathers all contour points, shown to build exactly
      the aggregate. */
  method CollectAllContourPoints(contours: seq<Contour>) returns (result: seq<Value>)
    ensures result == AllContourPoints(contours)
  {
    result := [];
    var i := 0;
    while i < |contours|
      invariant 0 <= i <= |contours|
      invariant result == AllContourPoints(contours[..i])
    {
      var points := contours[i].points;
      var j := 0;
      while j < |points|
        invariant 0 <= j <= |points|
        invariant result == AllContourPoints(contours[..i]) + CoordsList(points[..j])
      {
        CoordsListSnoc(points, j);
        result := result + [Coords(points[j])];
        j := j + 1;
      }
      assert points[..j] == points;
      AllContourPointsSnoc(contours, i);
      i := i + 1;
    }
    assert contours[..i] == contours;
  }

  // ---------------------------------------------------------------------------
  // A worked example
  // ---------------------------------------------------------------------------

  /** A face with box (10, 20) to (40, 60) and pose (1.5, -2.0) is reported
      with left 10, top 20, width 30, height 40 and that pose. */
  lemma ExampleFaceBox(landmarks: map<LandmarkType, Point>, contours: seq<Contour>)
    ensures
      var face := Face(Rect(10, 20, 40, 60), 1.5, -2.0, Some(0.9), None, None, None, landmarks, contours);
      var r := FaceRecord(face);
      && FieldKey(Left) in r && r[FieldKey(Left)] == Double(10.0)
      && FieldKey(Top) in r && r[FieldKey(Top)] == Double(20.0)
      && FieldKey(Width) in r && r[FieldKey(Width)] == Double(30.0)
      && FieldKey(Height) in r && r[FieldKey(Height)] == Double(40.0)
      && FieldKey(HeadEulerAngleY) in r && r[FieldKey(HeadEulerAngleY)] == Double(1.5)
      && FieldKey(HeadEulerAngleZ) in r && r[FieldKey(HeadEulerAngleZ)] == Double(-2.0)
  {
    var face := Face(Rect(10, 20, 40, 60), 1.5, -2.0, Some(0.9), None, None, None, landmarks, contours);
    FaceRecordValues(face);
  }

  /** The same face, with a smiling probability and no tracking id, carries
      `smilingProbability` and no `trackingId` key. */
  lemma ExampleFaceOptional(landmarks: map<LandmarkType, Point>, contours: seq<Contour>)
    ensures
      var face := Face(Rect(10, 20, 40, 60), 1.5, -2.0, Some(0.9), None, None, None, landmarks, contours);
      var r := FaceRecord(face);
      && FieldKey(SmilingProbability) in r && r[FieldKey(SmilingProbability)] == Double(0.9)
      && FieldKey(TrackingId) !in r
  {
    var face := Face(Rect(10, 20, 40, 60), 1.5, -2.0, Some(0.9), None, None, None, landmarks, contours);
    FaceRecordOptional(face);
  }

  /** A box spanning the whole 32-bit range has a width of 2^32 - 1, which
      the 32-bit subtraction wraps around to -1. */
  lemma ExampleWideBoxWraps(landmarks: map<LandmarkType, Point>, contours: seq<Contour>)
    ensures
      var face := Face(Rect(IntMin, 0, IntMax, 10), 0.0, 0.0, None, None, None, None, landmarks, contours);
      var r := FaceRecord(face);
      FieldKey(Width) in r && r[FieldKey(Width)] == Double(-1.0)
  {
    var face := Face(Rect(IntMin, 0, IntMax, 10), 0.0, 0.0, None, None, None, None, landmarks, contours);
    FaceRecordValues(face);
  }
}

=== FILE: handler.dfy ===
/** The method-call handler: routes each call by its method name, lazily creates
    a detector the first time a handle is used, forwards detections to it and
    closes it on request. Every call is a transition of the detector table that
    delivers exactly one response. What lies outside the plugin -- the file
    system, the image codec, the detection engine and the engine's close -- is
    supplied as a `Foreign` parameter. */
module Handler {
  import opened Wrappers
  import opened Channel
  import opened ImageDecoding
  import opened Registry
  import FaceDetection

  // ---------------------------------------------------------------------------
  // Routing
  // ---------------------------------------------------------------------------

  /** What the handler does with a method name. */
  datatype Action = Process | Close | Unsupported

  /** The four detector kinds the application knows. */
  const BarcodeKind := "BarcodeDetector"
  const FaceKind := "FaceDetector"
  const LabelerKind := "ImageLabeler"
  const TextKind := "TextRecognizer"

  /** The methods that run a detection, one per kind. */
  const ProcessMethods: set<string> :=
    {BarcodeKind + "#detectInImage", FaceKind + "#processImage",
     LabelerKind + "#processImage", TextKind + "#processImage"}

  /** The methods that close a detector, one per kind. */
  const CloseMethods: set<string> :=
    {BarcodeKind + "#close", FaceKind + "#close", LabelerKind + "#close", TextKind + "#close"}

  function Route(name: string): (a: Action)
    ensures a == Process <==> name in ProcessMethods
    ensures a == Close <==> name in CloseMethods
    ensures a == Unsupported <==> name !in ProcessMethods && name !in CloseMethods
  {
    if name in ProcessMethods then Process
    else if name in CloseMethods then Close
    else Unsupported
  }

  /** The detector kind a method name belongs to: the text before its first
      `#`, or the whole name when it has none. */
  function KindOf(name: string): (kind: string)
    ensures kind <= name
    ensures '#' !in kind
    ensures |kind| < |name| ==> name[|kind|] == '#'
  {
    if name == [] || name[0] == '#' then []
    else [name[0]] + KindOf(name[1..])
  }

  /** The kind is determined by its three properties: a `#`-free name followed
      by anything that starts with `#` yields that name. */
  lemma KindOfQualified(kind: string, rest: string)
    requires '#' !in kind
    requires |rest| > 0 && rest[0] == '#'
    ensures KindOf(kind + rest) == kind
  {
    var name := kind + rest;
    var found := KindOf(name);
    assert name[|kind|] == '#';
    assert |found| == |kind|;
    assert found == name[..|found|] == kind;
  }

  /** The kind of each detection method. */
  lemma ProcessMethodKinds()
    ensures KindOf(BarcodeKind + "#detectInImage") == BarcodeKind
    ensures KindOf(FaceKind + "#processImage") == FaceKind
    ensures KindOf(LabelerKind + "#processImage") == LabelerKind
    ensures KindOf(TextKind + "#processImage") == TextKind
  {
    KindOfQualified(BarcodeKind, "#detectInImage");
    KindOfQualified(FaceKind, "#processImage");
    KindOfQualified(LabelerKind, "#processImage");
    KindOfQualified(TextKind, "#processImage");
  }

  /** Of the detection methods, only the face one names the face kind. */
  lemma ProcessKinds(name: string)
    requires name in ProcessMethods
    ensures KindOf(name) == FaceKind <==> name == FaceKind + "#processImage"
  {
    ProcessMethodKinds();
  }

  // ---------------------------------------------------------------------------
  // Calls and transitions
  // ---------------------------------------------------------------------------

  /** A method call: its name and its argument map. The argument map is at the
      same time the image payload, and carries the handle and the options. */
  datatype Call = Call(name: string, arguments: Args)

  const HandleKey := "handle"
  const OptionsKey := "options"

  /** The handle a call names, when its `handle` argument is an `Integer`. */
  function HandleArg(call: Call): (h: Option<int>)
    ensures h.Some? <==> Lookup(call.arguments, HandleKey).Integer? && IsInt32(Lookup(call.arguments, HandleKey).i)
    ensures h.Some? ==> Lookup(call.arguments, HandleKey) == Integer(h.value)
  {
    match ReadInt(call.arguments, HandleKey)
    case Success(handle) => Some(handle)
    case Failure(_) => None
  }

  /** How closing the engine ends: normally, with an I/O exception the handler
      reports, or with any other exception, which escapes. */
  datatype Closing = Closed | CloseIOFailure(message: string) | CloseUnchecked(message: string)

  /** Everything the handler learns from outside the plugin during one call. */
  datatype Foreign = Foreign(
    file: FileRead,                                            // reading the image file
    accepted: bool,                                            // the codec accepting the buffer
    engine: Option<InputImage> -> FaceDetection.EngineOutcome, // the detection run on the image, null included
    closing: Closing)                                          // closing the engine

  /** The table after a call and the one response the call delivered. */
  datatype Outcome = Outcome(detectors: Detectors, response: Response)

  const IOErrorCode := "MLVisionDetectorIOError"

  /** The `options` argument passes the cast to a map that every detection
      call makes first: it is a map, or null. */
  predicate OptionsCastable(call: Call) {
    Lookup(call.arguments, OptionsKey).Dict? || Lookup(call.arguments, OptionsKey) == Null
  }

  // ---------------------------------------------------------------------------
  // Detection
  // ---------------------------------------------------------------------------

  /** The detector the handler builds for a kind from the raw `options`
      argument: faces get a configured detector, every other kind none. */
  function CreateDetector(kind: string, options: Value): (r: Result<Option<Detector>, Thrown>)
    ensures kind != FaceKind ==> r == Success(None)
    ensures kind == FaceKind && options.Dict? ==>
              match FaceDetection.ParseOptions(options.entries)
              case Success(config) => r == Success(Some(FaceDetector(config)))
              case Failure(t) => r == Failure(t)
    ensures kind == FaceKind && !options.Dict? ==> r == Failure(CastFailure(options))
  {
    if kind != FaceKind then Success(None)
    else match options
      case Dict(entries) =>
        var config :- FaceDetection.ParseOptions(entries);
        Success(Some(FaceDetector(config)))
      case _ => Failure(CastFailure(options))
  }

  /** The part of a detection call after the image is decoded and the handle
      read: a bound detector answers; on a free handle one is created from the
      options and bound, then answers. Only `handle` can change, and only by
      binding a detector that then answered, however its engine ended. */
  function DetectOnHandle(detectors: Detectors, handle: int, call: Call, image: Option<InputImage>,
                          foreign: Foreign): (r: Outcome)
    ensures forall h :: h in detectors ==> h in r.detectors && r.detectors[h] == detectors[h]
    ensures r.detectors.Keys <= detectors.Keys + {handle}
    ensures r.detectors - {handle} == detectors - {handle}
    ensures r.detectors != detectors ==>
              && handle !in detectors && handle in r.detectors
              && r.response == r.detectors[handle].HandleDetection(foreign.engine(image))
  {
    if handle in detectors then
      Outcome(detectors, detectors[handle].HandleDetection(foreign.engine(image)))
    else match CreateDetector(KindOf(call.name), Lookup(call.arguments, OptionsKey))
      case Failure(t) => Outcome(detectors, Fatal(t))
      case Success(detector) =>
        match AddDetector(detectors, handle, detector)
        case Failure(t) => Outcome(detectors, Fatal(t))
        case Success(bound) =>
          if detector.None? then Outcome(bound, Fatal(NullPointer))
          else Outcome(bound, detector.value.HandleDetection(foreign.engine(image)))
  }

  /** A detection call: cast the options, decode the image, then find the
      handle's detector -- creating and binding one when the handle is free --
      and let it answer. */
  function HandleDetection(detectors: Detectors, call: Call, foreign: Foreign): (r: Outcome)
    ensures !OptionsCastable(call) ==> r == Outcome(detectors, Fatal(ClassCast))
    ensures forall h :: h in detectors ==> h in r.detectors && r.detectors[h] == detectors[h]
    ensures r.detectors != detectors ==>
              && HandleArg(call).Some? && DecodedImage(call, foreign).Success?
              && var h := HandleArg(call).value;
                 && h !in detectors && h in r.detectors
                 && r.response == r.detectors[h].HandleDetection(foreign.engine(DecodedImage(call, foreign).value))
    ensures HandleArg(call).None? ==> r.detectors == detectors
    ensures HandleArg(call).Some? ==> r.detectors - {HandleArg(call).value} == detectors - {HandleArg(call).value}
  {
    if !OptionsCastable(call) then Outcome(detectors, Fatal(ClassCast))
    else match Decode(call.arguments, foreign.file, foreign.accepted)
    case Failure(IOError(message)) => Outcome(detectors, Error(IOErrorCode, message))
    case Failure(Raised(t)) => Outcome(detectors, Fatal(t))
    case Success(image) =>
      match ReadInt(call.arguments, HandleKey)
      case Failure(t) => Outcome(detectors, Fatal(t))
      case Success(handle) => DetectOnHandle(detectors, handle, call, image, foreign)
  }

  // ---------------------------------------------------------------------------
  // Closing
  // ---------------------------------------------------------------------------

  /** A close call: an unbound handle throws; a bound detector is closed and
      its handle unbound however the close ends. */
  function CloseDetector(detectors: Detectors, call: Call, closing: Closing): (r: Outcome)
    ensures r.detectors.Keys <= detectors.Keys
    ensures forall h :: h in r.detectors ==> r.detectors[h] == detectors[h]
    ensures HandleArg(call).None? ==> r == Outcome(detectors, Fatal(CastFailure(Lookup(call.arguments, HandleKey))))
    ensures HandleArg(call).Some? && HandleArg(call).value !in detectors ==>
              r == Outcome(detectors, Fatal(HandleDoesNotExist(HandleArg(call).value)))
    ensures HandleArg(call).Some? && HandleArg(call).value in detectors ==>
              r.detectors == detectors - {HandleArg(call).value}
    ensures HandleArg(call).Some? ==> r.detectors - {HandleArg(call).value} == detectors - {HandleArg(call).value}
  {
    match ReadInt(call.arguments, HandleKey)
    case Failure(t) => Outcome(detectors, Fatal(t))
    case Success(handle) =>
      match GetDetector(detectors, handle)
      case None => Outcome(detectors, Fatal(HandleDoesNotExist(handle)))
      case Some(detector) =>
        var response := match closing
          case Closed => Done(Null)
          case CloseIOFailure(message) => Error(detector.ClassName() + "IOError", message)
          case CloseUnchecked(message) => Fatal(Unchecked(message));
        Outcome(RemoveDetector(detectors, handle), response)
  }

  // ---------------------------------------------------------------------------
  // The entry point
  // ---------------------------------------------------------------------------

  /** One method call. Unknown methods are answered as not implemented; every
      call leaves all handles other than its own as they were. */
  function OnMethodCall(detectors: Detectors, call: Call, foreign: Foreign): (r: Outcome)
    ensures Route(call.name) == Unsupported ==> r == Outcome(detectors, NotImplemented)
    ensures HandleArg(call).None? ==> r.detectors == detectors
    ensures HandleArg(call).Some? ==> r.detectors - {HandleArg(call).value} == detectors - {HandleArg(call).value}
    ensures Route(call.name) == Process ==> forall h :: h in detectors ==> h in r.detectors && r.detectors[h] == detectors[h]
    ensures Route(call.name) == Close ==> r.detectors.Keys <= detectors.Keys
  {
    match Route(call.name)
    case Process => HandleDetection(detectors, call, foreign)
    case Close => CloseDetector(detectors, call, foreign.closing)
    case Unsupported => Outcome(detectors, NotImplemented)
  }

  // ---------------------------------------------------------------------------
  // Properties of the handler
  // ---------------------------------------------------------------------------

  /** The image a detection call decodes, when decoding succeeds. */
  function DecodedImage(call: Call, foreign: Foreign): Result<Option<InputImage>, DecodeError> {
    Decode(call.arguments, foreign.file, foreign.accepted)
  }

  /** An image file that cannot be read is reported with the handler's I/O
      error code before any detector is looked up or created. */
  lemma DetectionIOError(detectors: Detectors, call: Call, foreign: Foreign)
    requires Route(call.name) == Process
    requires OptionsCastable(call)
    requires DecodedImage(call, foreign).Failure? && DecodedImage(call, foreign).error.IOError?
    ensures OnMethodCall(detectors, call, foreign)
            == Outcome(detectors, Error(IOErrorCode, DecodedImage(call, foreign).error.message))
  {
  }

  /** A detection on a bound handle is answered by the bound detector and
      leaves the table unchanged. */
  lemma BoundHandleAnswers(detectors: Detectors, call: Call, foreign: Foreign, handle: int)
    requires Route(call.name) == Process
    requires OptionsCastable(call)
    requires DecodedImage(call, foreign).Success?
    requires HandleArg(call) == Some(handle) && handle in detectors
    ensures OnMethodCall(detectors, call, foreign)
            == Outcome(detectors, detectors[handle].HandleDetection(foreign.engine(DecodedImage(call, foreign).value)))
  {
  }

  /** Decoding reads only the image entries of the arguments. */
  lemma DecodeIgnoresOptions(arguments: Args, options: Value, file: FileRead, accepted: bool)
    ensures Decode(arguments[OptionsKey := options], file, accepted) == Decode(arguments, file, accepted)
  {
    var updated := arguments[OptionsKey := options];
    assert Lookup(updated, "type") == Lookup(arguments, "type");
    assert Lookup(updated, "path") == Lookup(arguments, "path");
    assert Lookup(updated, "bytes") == Lookup(arguments, "bytes");
    assert Lookup(updated, "metadata") == Lookup(arguments, "metadata");
  }

  /** Beyond their cast to a map, the options only matter when a detector is
      created: on a bound handle any map (or null) options give the same
      outcome. */
  lemma OptionsIgnoredWhenBound(detectors: Detectors, call: Call, foreign: Foreign, options: Value)
    requires HandleArg(call).Some? && HandleArg(call).value in detectors
    requires OptionsCastable(call)
    requires options.Dict? || options == Null
    ensures OnMethodCall(detectors, call.(arguments := call.arguments[OptionsKey := options]), foreign)
            == OnMethodCall(detectors, call, foreign)
  {
    var other := call.(arguments := call.arguments[OptionsKey := options]);
    DecodeIgnoresOptions(call.arguments, options, foreign.file, foreign.accepted);
    assert Lookup(other.arguments, HandleKey) == Lookup(call.arguments, HandleKey);
  }

  /** The first face detection on a free handle with valid options binds a
      face detector configured from them, which answers the call. */
  lemma FaceDetectorCreated(detectors: Detectors, call: Call, foreign: Foreign, handle: int)
    requires call.name == FaceKind + "#processImage"
    requires DecodedImage(call, foreign).Success?
    requires HandleArg(call) == Some(handle) && handle !in detectors
    requires Lookup(call.arguments, OptionsKey).Dict?
    requires FaceDetection.ValidOptions(Lookup(call.arguments, OptionsKey).entries)
    ensures
      var config := FaceDetection.ParseOptions(Lookup(call.arguments, OptionsKey).entries).value;
      OnMethodCall(detectors, call, foreign)
      == Outcome(detectors[handle := FaceDetector(config)],
                 FaceDetection.DetectionReply(foreign.engine(DecodedImage(call, foreign).value)))
  {
    ProcessMethodKinds();
  }

  /** Binding comes before detection: when `process` throws at once -- on the
      null image a rejected buffer decodes to, say -- the new detector stays
      bound and the exception escapes. */
  lemma ThrowingProcessKeepsBinding(detectors: Detectors, call: Call, foreign: Foreign, handle: int)
    requires call.name == FaceKind + "#processImage"
    requires DecodedImage(call, foreign).Success?
    requires HandleArg(call) == Some(handle) && handle !in detectors
    requires Lookup(call.arguments, OptionsKey).Dict?
    requires FaceDetection.ValidOptions(Lookup(call.arguments, OptionsKey).entries)
    requires foreign.engine(DecodedImage(call, foreign).value).ProcessThrew?
    ensures handle in OnMethodCall(detectors, call, foreign).detectors
    ensures OnMethodCall(detectors, call, foreign).response
            == Fatal(foreign.engine(DecodedImage(call, foreign).value).thrown)
  {
    FaceDetectorCreated(detectors, call, foreign, handle);
  }

  /** A created detector is reused: a later detection on the same handle, of
      whatever method and map options, is answered by it and binds nothing new. */
  lemma CreatedDetectorReused(detectors: Detectors, call: Call, foreign: Foreign, handle: int,
                              next: Call, later: Foreign)
    requires call.name == FaceKind + "#processImage"
    requires DecodedImage(call, foreign).Success?
    requires HandleArg(call) == Some(handle) && handle !in detectors
    requires Lookup(call.arguments, OptionsKey).Dict?
    requires FaceDetection.ValidOptions(Lookup(call.arguments, OptionsKey).entries)
    requires Route(next.name) == Process
    requires OptionsCastable(next)
    requires DecodedImage(next, later).Success?
    requires HandleArg(next) == Some(handle)
    ensures
      var config := FaceDetection.ParseOptions(Lookup(call.arguments, OptionsKey).entries).value;
      var first := OnMethodCall(detectors, call, foreign);
      OnMethodCall(first.detectors, next, later)
      == Outcome(first.detectors, FaceDetector(config).HandleDetection(later.engine(DecodedImage(next, later).value)))
  {
    FaceDetectorCreated(detectors, call, foreign, handle);
    var first := OnMethodCall(detectors, call, foreign);
    BoundHandleAnswers(first.detectors, next, later, handle);
  }

  /** Options a face detector cannot be built from make the detection throw
      what the options parser threw, binding nothing. */
  lemma InvalidOptionsFatal(detectors: Detectors, call: Call, foreign: Foreign, handle: int)
    requires call.name == FaceKind + "#processImage"
    requires DecodedImage(call, foreign).Success?
    requires HandleArg(call) == Some(handle) && handle !in detectors
    requires Lookup(call.arguments, OptionsKey).Dict?
    requires !FaceDetection.ValidOptions(Lookup(call.arguments, OptionsKey).entries)
    ensures OnMethodCall(detectors, call, foreign)
            == Outcome(detectors, Fatal(FaceDetection.ParseOptions(Lookup(call.arguments, OptionsKey).entries).error))
  {
    ProcessMethodKinds();
  }

  /** A mode other than `accurate` or `fast`, after well-typed detail switches,
      throws the "not a mode" exception and binds nothing. */
  lemma UnknownModeFatal(detectors: Detectors, call: Call, foreign: Foreign, handle: int)
    requires call.name == FaceKind + "#processImage"
    requires DecodedImage(call, foreign).Success?
    requires HandleArg(call) == Some(handle) && handle !in detectors
    requires Lookup(call.arguments, OptionsKey).Dict?
    requires
      var options := Lookup(call.arguments, OptionsKey).entries;
      && Lookup(options, FaceDetection.ClassificationKey).Bool?
      && Lookup(options, FaceDetection.LandmarksKey).Bool?
      && Lookup(options, FaceDetection.ContoursKey).Bool?
      && Lookup(options, FaceDetection.ModeKey) !in {Str("accurate"), Str("fast")}
    ensures OnMethodCall(detectors, call, foreign)
            == Outcome(detectors, Fatal(NotAMode(Lookup(Lookup(call.arguments, OptionsKey).entries, FaceDetection.ModeKey))))
  {
    InvalidOptionsFatal(detectors, call, foreign, handle);
  }

  /** Only faces can be created: a detection of another kind on a free handle
      finds no detector and throws, binding nothing. */
  lemma OtherKindsUnbound(detectors: Detectors, call: Call, foreign: Foreign, handle: int)
    requires call.name in ProcessMethods && call.name != FaceKind + "#processImage"
    requires OptionsCastable(call)
    requires DecodedImage(call, foreign).Success?
    requires HandleArg(call) == Some(handle) && handle !in detectors
    ensures OnMethodCall(detectors, call, foreign) == Outcome(detectors, Fatal(NullPointer))
  {
    ProcessKinds(call.name);
  }

  /** Options that are neither a map nor null fail their cast before the
      image is decoded or any handle read: the call throws and changes
      nothing, whatever the image and the table. */
  lemma NonMapOptionsFatal(detectors: Detectors, call: Call, foreign: Foreign)
    requires Route(call.name) == Process
    requires !Lookup(call.arguments, OptionsKey).Dict? && Lookup(call.arguments, OptionsKey) != Null
    ensures OnMethodCall(detectors, call, foreign) == Outcome(detectors, Fatal(ClassCast))
  {
  }

  /** A handle beyond the 32-bit range arrives as a `Long` and fails its cast
      to `Integer`: a close, or a detection whose image decodes, throws and
      changes nothing. */
  lemma LongHandleFatal(detectors: Detectors, call: Call, foreign: Foreign)
    requires Lookup(call.arguments, HandleKey).Integer? && !IsInt32(Lookup(call.arguments, HandleKey).i)
    requires Route(call.name) == Close || (Route(call.name) == Process && OptionsCastable(call)
                                           && DecodedImage(call, foreign).Success?)
    ensures OnMethodCall(detectors, call, foreign) == Outcome(detectors, Fatal(ClassCast))
  {
  }

  /** Closing a free handle throws and changes nothing. */
  lemma CloseUnknown(detectors: Detectors, call: Call, foreign: Foreign, handle: int)
    requires Route(call.name) == Close
    requires HandleArg(call) == Some(handle) && handle !in detectors
    ensures OnMethodCall(detectors, call, foreign) == Outcome(detectors, Fatal(HandleDoesNotExist(handle)))
  {
  }

  /** Closing a bound handle unbinds it however the engine's close ends, and
      the response says how it ended. */
  lemma CloseUnbinds(detectors: Detectors, call: Call, foreign: Foreign, handle: int)
    requires Route(call.name) == Close
    requires HandleArg(call) == Some(handle) && handle in detectors
    ensures OnMethodCall(detectors, call, foreign).detectors == detectors - {handle}
    ensures foreign.closing.Closed? ==> OnMethodCall(detectors, call, foreign).response == Done(Null)
    ensures foreign.closing.CloseIOFailure? ==>
              OnMethodCall(detectors, call, foreign).response == Error("GMLKFaceDetectorIOError", foreign.closing.message)
    ensures foreign.closing.CloseUnchecked? ==>
              OnMethodCall(detectors, call, foreign).response == Fatal(Unchecked(foreign.closing.message))
  {
  }

  /** A detection on a free handle followed by a close of that handle leaves
      the table as it was, whether or not the detection bound a detector. */
  lemma ProcessThenCloseRestores(detectors: Detectors, process: Call, close: Call, first: Foreign, second: Foreign,
                                 handle: int)
    requires Route(process.name) == Process && Route(close.name) == Close
    requires HandleArg(process) == Some(handle) && HandleArg(close) == Some(handle)
    requires handle !in detectors
    ensures OnMethodCall(OnMethodCall(detectors, process, first).detectors, close, second).detectors == detectors
  {
    var middle := OnMethodCall(detectors, process, first).detectors;
    assert detectors - {handle} == detectors;
    if handle in middle {
      CloseUnbinds(middle, close, second, handle);
    } else {
      assert middle == middle - {handle};
      CloseUnknown(middle, close, second, handle);
    }
  }

  /** The part of a detection after decoding depends on the table only
      through the call's handle. */
  lemma DetectOnHandleIsLocal(one: Detectors, two: Detectors, handle: int, call: Call,
                              image: Option<InputImage>, foreign: Foreign)
    requires handle in one <==> handle in two
    requires handle in one ==> one[handle] == two[handle]
    ensures DetectOnHandle(one, handle, call, image, foreign).response
            == DetectOnHandle(two, handle, call, image, foreign).response
    ensures
      var after1 := DetectOnHandle(one, handle, call, image, foreign).detectors;
      var after2 := DetectOnHandle(two, handle, call, image, foreign).detectors;
      (handle in after1 <==> handle in after2) && (handle in after1 ==> after1[handle] == after2[handle])
  {
  }

  /** A detection depends on the table only through the call's handle. */
  lemma HandleDetectionIsLocal(one: Detectors, two: Detectors, call: Call, foreign: Foreign)
    requires HandleArg(call).Some? ==>
               var h := HandleArg(call).value;
               (h in one <==> h in two) && (h in one ==> one[h] == two[h])
    ensures HandleDetection(one, call, foreign).response == HandleDetection(two, call, foreign).response
    ensures HandleArg(call).Some? ==>
              var h := HandleArg(call).value;
              var after1 := HandleDetection(one, call, foreign).detectors;
              var after2 := HandleDetection(two, call, foreign).detectors;
              (h in after1 <==> h in after2) && (h in after1 ==> after1[h] == after2[h])
  {
    if OptionsCastable(call) && DecodedImage(call, foreign).Success? && HandleArg(call).Some? {
      DetectOnHandleIsLocal(one, two, HandleArg(call).value, call, DecodedImage(call, foreign).value, foreign);
    }
  }

  /** A call depends on the table only through its own handle: two tables that
      agree there give the same response and agree there afterwards. */
  lemma CallIsLocal(one: Detectors, two: Detectors, call: Call, foreign: Foreign)
    requires HandleArg(call).Some? ==>
               var h := HandleArg(call).value;
               (h in one <==> h in two) && (h in one ==> one[h] == two[h])
    ensures OnMethodCall(one, call, foreign).response == OnMethodCall(two, call, foreign).response
    ensures HandleArg(call).Some? ==>
              var h := HandleArg(call).value;
              var after1 := OnMethodCall(one, call, foreign).detectors;
              var after2 := OnMethodCall(two, call, foreign).detectors;
              (h in after1 <==> h in after2) && (h in after1 ==> after1[h] == after2[h])
  {
    if Route(call.name) == Process {
      HandleDetectionIsLocal(one, two, call, foreign);
    }
  }
}

=== FILE: image_decoding.dfy ===
/** Turning the image payload of a detection call into an engine image. The
    payload is a map tagged by its `type` entry: `file` names a path whose EXIF
    orientation decides whether the file is rotated first, and `bytes` carries a
    raw buffer with its dimensions and rotation. File access and the image codec
    are outside the model: their outcomes are parameters. */
module ImageDecoding {
  import opened Wrappers
  import opened Channel

  // ---------------------------------------------------------------------------
  // EXIF orientation
  // ---------------------------------------------------------------------------

  /** The EXIF orientation tag values that mean a plain rotation. */
  const OrientationNormal := 1
  const OrientationRotate180 := 3
  const OrientationRotate90 := 6
  const OrientationRotate270 := 8

  /** The clockwise rotation an orientation code calls for: the three rotating
      codes map to their angle, every other code (flips included) to none. */
  function RotationDegrees(orientation: int): (degrees: int)
    ensures degrees in {0, 90, 180, 270}
    ensures degrees == 90 <==> orientation == OrientationRotate90
    ensures degrees == 180 <==> orientation == OrientationRotate180
    ensures degrees == 270 <==> orientation == OrientationRotate270
  {
    if orientation == OrientationRotate90 then 90
    else if orientation == OrientationRotate180 then 180
    else if orientation == OrientationRotate270 then 270
    else 0
  }

  /** What opening the image file yields: an I/O failure, or its orientation
      tag (absent when the file carries none). */
  datatype FileRead = Unreadable(message: string) | Readable(orientationTag: Option<int>)

  /** The rotation a file needs; a file without an orientation tag counts as
      normally oriented. */
  function FileRotation(file: FileRead): (r: Result<int, string>)
    ensures file.Unreadable? <==> r.Failure?
    ensures file.Unreadable? ==> r.error == file.message
    ensures r.Success? ==> r.value in {0, 90, 180, 270}
    ensures file.Readable? && file.orientationTag.None? ==> r == Success(0)
    ensures file.Readable? && file.orientationTag.Some? ==> r == Success(RotationDegrees(file.orientationTag.value))
  {
    match file
    case Unreadable(message) => Failure(message)
    case Readable(tag) => Success(RotationDegrees(if tag.Some? then tag.value else OrientationNormal))
  }

  // ---------------------------------------------------------------------------
  // Numeric conversion of the buffer dimensions
  // ---------------------------------------------------------------------------

  /** A double converted to a 32-bit integer: rounded toward zero, and clamped to
      the integer range. */
  function DoubleToInt(d: real): (r: int)
    ensures IntMin <= r <= IntMax
    ensures d >= IntMax as real ==> r == IntMax
    ensures d <= IntMin as real ==> r == IntMin
    ensures IntMin as real < d < IntMax as real && d >= 0.0 ==> r as real <= d < r as real + 1.0
    ensures IntMin as real < d < IntMax as real && d < 0.0 ==> r as real - 1.0 < d <= r as real
  {
    if d >= IntMax as real then IntMax
    else if d <= IntMin as real then IntMin
    else if d >= 0.0 then d.Floor
    else -((-d).Floor)
  }

  // ---------------------------------------------------------------------------
  // Images
  // ---------------------------------------------------------------------------

  /** The image handed to the engine. */
  datatype InputImage =
    | FromFilePath(path: string)
      // the file itself, needing no rotation
    | FromBitmap(path: string, rotation: int)
      // the file decoded and rotated by `rotation` degrees, handed over upright
    | FromByteArray(data: seq<bv8>, width: int, height: int, rotation: int, format: int)

  /** The pixel format the buffer is declared in (NV21). */
  const Nv21 := 17

  /** Why decoding stopped: a checked I/O failure the caller reports, or an
      exception that escapes. */
  datatype DecodeError = IOError(message: string) | Raised(thrown: Thrown)

  /** `v as String?`. */
  function AsString(v: Value): (r: Result<Option<string>, Thrown>)
    ensures v.Str? ==> r == Success(Some(v.s))
    ensures v == Null ==> r == Success(None)
    ensures r.Failure? <==> !v.Str? && v != Null
    ensures r.Failure? ==> r.error == ClassCast
  {
    match v
    case Str(s) => Success(Some(s))
    case Null => Success(None)
    case _ => Failure(ClassCast)
  }

  /** The file branch: the path is opened for its orientation; an upright file
      is used as is, any other is decoded and rotated. */
  function DecodeFile(imageData: Args, file: FileRead): (r: Result<Option<InputImage>, DecodeError>)
    ensures r.Failure? && r.error.IOError? <==> Lookup(imageData, "path").Str? && file.Unreadable?
    ensures r.Success? ==> r.value.Some? && !r.value.value.FromByteArray?
    ensures r.Success? && r.value.value.FromFilePath? <==>
              Lookup(imageData, "path").Str? && FileRotation(file) == Success(0)
    ensures r.Success? && r.value.value.FromBitmap? ==>
              r.value.value.rotation in {90, 180, 270} && Success(r.value.value.rotation) == FileRotation(file)
    ensures r.Success? ==> Lookup(imageData, "path") == Str(r.value.value.path)
    ensures r.Failure? && r.error.Raised? ==> r.error.thrown == CastFailure(Lookup(imageData, "path"))
  {
    var path :- AsString(Lookup(imageData, "path")).MapFailure(t => Raised(t));
    if path.None? then Failure(Raised(NullPointer))
    else match FileRotation(file)
      case Failure(message) => Failure(IOError(message))
      case Success(degrees) =>
        if degrees == 0 then Success(Some(FromFilePath(path.value)))
        else Success(Some(FromBitmap(path.value, degrees)))
  }

  /** The buffer branch: the buffer, its metadata map and the width, height and
      rotation in it are read and cast in turn; a buffer the codec rejects
      yields no image rather than an error. */
  function DecodeBytes(imageData: Args, accepted: bool): (r: Result<Option<InputImage>, DecodeError>)
    ensures r.Failure? ==> r.error.Raised?
    ensures r.Success? && r.value.Some? <==> accepted && r.Success?
    ensures r.Success? <==>
      && Lookup(imageData, "bytes").Bytes?
      && Lookup(imageData, "metadata").Dict?
      && Lookup(Lookup(imageData, "metadata").entries, "width").Double?
      && Lookup(Lookup(imageData, "metadata").entries, "height").Double?
      && Lookup(Lookup(imageData, "metadata").entries, "rotation").Integer?
      && IsInt32(Lookup(Lookup(imageData, "metadata").entries, "rotation").i)
    ensures r.Success? && r.value.Some? ==>
      var metadata := Lookup(imageData, "metadata").entries;
      r.value.value == FromByteArray(Lookup(imageData, "bytes").data,
                                     DoubleToInt(Lookup(metadata, "width").d),
                                     DoubleToInt(Lookup(metadata, "height").d),
                                     Lookup(metadata, "rotation").i,
                                     Nv21)
  {
    var metadata :- match Lookup(imageData, "metadata")
                    case Dict(entries) => Success(Some(entries))
                    case Null => Success(None)
                    case _ => Failure(Raised(ClassCast));
    var bytes :- match Lookup(imageData, "bytes")
                 case Bytes(data) => Success(Some(data))
                 case Null => Success(None)
                 case _ => Failure(Raised(ClassCast));
    if metadata.None? then Failure(Raised(NullPointer)) else
    var width :- ReadDouble(metadata.value, "width").MapFailure(t => Raised(t));
    var height :- ReadDouble(metadata.value, "height").MapFailure(t => Raised(t));
    var rotation :- ReadInt(metadata.value, "rotation").MapFailure(t => Raised(t));
    if bytes.None? then Failure(Raised(NullPointer))
    else if accepted then Success(Some(FromByteArray(bytes.value, DoubleToInt(width), DoubleToInt(height), rotation, Nv21)))
    else Success(None)
  }

  /** Decodes the payload by its `type` tag; an unknown or missing tag throws. */
  function Decode(imageData: Args, file: FileRead, accepted: bool): (r: Result<Option<InputImage>, DecodeError>)
    ensures Lookup(imageData, "type") == Str("file") ==> r == DecodeFile(imageData, file)
    ensures Lookup(imageData, "type") == Str("bytes") ==> r == DecodeBytes(imageData, accepted)
    ensures Lookup(imageData, "type") == Null ==> r == Failure(Raised(NoImageType(None)))
    ensures !Lookup(imageData, "type").Str? && Lookup(imageData, "type") != Null ==> r == Failure(Raised(ClassCast))
    ensures Lookup(imageData, "type").Str? && Lookup(imageData, "type").s !in {"file", "bytes"} ==>
              r == Failure(Raised(NoImageType(Some(Lookup(imageData, "type").s))))
    ensures r.Failure? && r.error.IOError? ==> Lookup(imageData, "type") == Str("file") && file.Unreadable?
  {
    var imageType :- AsString(Lookup(imageData, "type")).MapFailure(t => Raised(t));
    if imageType == Some("file") then DecodeFile(imageData, file)
    else if imageType == Some("bytes") then DecodeBytes(imageData, accepted)
    else Failure(Raised(NoImageType(imageType)))
  }

  /** A whole number within the 32-bit range survives the conversion. */
  lemma DoubleToIntExact(n: int)
    requires IsInt32(n)
    ensures DoubleToInt(n as real) == n
  {
    if n < 0 {
      assert (-(n as real)).Floor == -n;
    }
  }

  /** The payload the application sends for a buffer image. */
  function BytesPayload(data: seq<bv8>, width: int, height: int, rotation: int): Args
  {
    var metadata := map["width" := Double(width as real), "height" := Double(height as real), "rotation" := Integer(rotation)];
    map["type" := Str("bytes"), "bytes" := Bytes(data), "metadata" := Dict(metadata)]
  }

  /** The payload the application sends for an image file. */
  function FilePayload(path: string): Args
  {
    map["type" := Str("file"), "path" := Str(path)]
  }

  /** A buffer payload decodes back to the buffer, dimensions and rotation it
      was built from when the codec accepts it, and to no image when it does
      not. A rotation beyond the 32-bit range arrives as a `Long` and throws. */
  lemma BytesRoundTrip(data: seq<bv8>, width: int, height: int, rotation: int, file: FileRead, accepted: bool)
    requires IsInt32(width) && IsInt32(height)
    ensures IsInt32(rotation) ==>
              Decode(BytesPayload(data, width, height, rotation), file, true)
              == Success(Some(FromByteArray(data, width, height, rotation, Nv21)))
    ensures IsInt32(rotation) ==> Decode(BytesPayload(data, width, height, rotation), file, false) == Success(None)
    ensures !IsInt32(rotation) ==>
              Decode(BytesPayload(data, width, height, rotation), file, accepted) == Failure(Raised(ClassCast))
  {
    DoubleToIntExact(width);
    DoubleToIntExact(height);
  }

  /** A file payload decodes to the same path, used directly when the file is
      upright and rotated by its orientation otherwise; an unreadable file is an
      I/O error. */
  lemma FileRoundTrip(path: string, file: FileRead, accepted: bool)
    ensures file.Unreadable? ==> Decode(FilePayload(path), file, accepted) == Failure(IOError(file.message))
    ensures file.Readable? && FileRotation(file) == Success(0) ==>
              Decode(FilePayload(path), file, accepted) == Success(Some(FromFilePath(path)))
    ensures file.Readable? && FileRotation(file) != Success(0) ==>
              Decode(FilePayload(path), file, accepted) == Success(Some(FromBitmap(path, FileRotation(file).value)))
  {
  }

  /** A 100 by 50 buffer with rotation 0 that the codec accepts decodes to a
      100 by 50 image. */
  lemma ExampleBytesDecode(data: seq<bv8>, file: FileRead)
    ensures Decode(BytesPayload(data, 100, 50, 0), file, true) == Success(Some(FromByteArray(data, 100, 50, 0, Nv21)))
  {
    BytesRoundTrip(data, 100, 50, 0, file, true);
  }

  /** A buffer whose metadata lacks the width throws and produces no image. */
  lemma ExampleMissingWidth(data: seq<bv8>, file: FileRead, accepted: bool)
    ensures
      var metadata := map["height" := Double(50.0), "rotation" := Integer(0)];
      var imageData := map["type" := Str("bytes"), "bytes" := Bytes(data), "metadata" := Dict(metadata)];
      Decode(imageData, file, accepted) == Failure(Raised(NullPointer))
  {
  }
}

=== FILE: registry.dfy ===
/** The handler's table of live detectors, keyed by the integer handle the
    application allocated for each. A handle is bound at most once: binding an
    occupied handle is refused, and closing a detector unbinds its handle. */
module Registry {
  import opened Wrappers
  import opened Channel
  import FaceDetection

  /** A live detector. Faces are the only kind the handler can create. */
  datatype Detector = FaceDetector(config: FaceDetection.Config) {

    /** The simple name of the detector's class, without its package, from
        which the close error code is formed. */
    function ClassName(): (name: string)
      ensures |name| > 0 && '.' !in name
    {
      "GMLKFaceDetector"
    }

    /** The reply the detector sends for one engine outcome: the faces found as
        one record each, in order, or the engine's failure. */
    function HandleDetection(outcome: FaceDetection.EngineOutcome): (r: Response)
      ensures outcome.Found? <==> r.Done?
      ensures outcome.Found? ==> r.value.List? && |r.value.items| == |outcome.faces|
      ensures outcome.Found? ==> forall i :: 0 <= i < |outcome.faces| ==>
                r.value.items[i] == Dict(FaceDetection.FaceRecord(outcome.faces[i]))
      ensures outcome.EngineFailed? ==> r == Error("faceDetectorError", outcome.message)
      ensures outcome.ProcessThrew? ==> r == Fatal(outcome.thrown)
    {
      FaceDetection.DetectionReply(outcome)
    }
  }

  /** Handle to detector. A handle bound to nothing is simply absent. */
  type Detectors = map<int, Detector>

  /** The detector bound to `handle`, if any. */
  function GetDetector(detectors: Detectors, handle: int): (r: Option<Detector>)
    ensures r.Some? <==> handle in detectors
    ensures r.Some? ==> r.value == detectors[handle]
  {
    if handle in detectors then Some(detectors[handle]) else None
  }

  /** Binds `handle` to `detector`. An occupied handle is refused with an
      exception; binding no detector leaves the handle unbound, as a null entry
      reads back as absent. */
  function AddDetector(detectors: Detectors, handle: int, detector: Option<Detector>): (r: Result<Detectors, Thrown>)
    ensures r.Failure? <==> handle in detectors
    ensures r.Failure? ==> r.error == HandleAlreadyExists(handle)
    ensures r.Success? && detector.Some? ==> r.value.Keys == detectors.Keys + {handle} && r.value[handle] == detector.value
    ensures r.Success? && detector.None? ==> r.value == detectors
    ensures r.Success? ==> forall h :: h in detectors ==> r.value[h] == detectors[h]
  {
    if handle in detectors then Failure(HandleAlreadyExists(handle))
    else if detector.None? then Success(detectors)
    else Success(detectors[handle := detector.value])
  }

  /** Unbinds `handle`; every other binding stays as it was. */
  function RemoveDetector(detectors: Detectors, handle: int): (r: Detectors)
    ensures r.Keys == detectors.Keys - {handle}
    ensures forall h :: h in r ==> r[h] == detectors[h]
  {
    detectors - {handle}
  }

  /** Removing a handle undoes binding it: a fresh handle bound and then
      unbound leaves the table as it was. */
  lemma AddThenRemove(detectors: Detectors, handle: int, detector: Option<Detector>)
    requires handle !in detectors
    ensures AddDetector(detectors, handle, detector).Success?
    ensures RemoveDetector(AddDetector(detectors, handle, detector).value, handle) == detectors
  {
    var added := AddDetector(detectors, handle, detector).value;
    var removed := RemoveDetector(added, handle);
    assert removed.Keys == detectors.Keys;
    assert forall h :: h in removed ==> removed[h] == detectors[h];
  }

  /** Once bound, a handle keeps its detector until it is removed: a second
      binding of it is always refused and changes nothing. */
  lemma BindOnce(detectors: Detectors, handle: int, first: Detector, second: Option<Detector>)
    requires handle !in detectors
    ensures AddDetector(detectors, handle, Some(first)).Success?
    ensures
      var bound := AddDetector(detectors, handle, Some(first)).value;
      AddDetector(bound, handle, second) == Failure(HandleAlreadyExists(handle)) && GetDetector(bound, handle) == Some(first)
  {
  }
}

=== FILE: wrappers.dfy ===
/** Failure-compatible wrappers used throughout the model: an optional value and a
    value-or-error result, both usable with `:-`. */
module Wrappers {

  /** An optional value: the model's stand-in for a nullable reference. */
  datatype Option<+T> = None | Some(value: T) {

    predicate IsFailure() {
      None?
    }

    function PropagateFailure<U>(): Option<U>
      requires None?
    {
      None
    }

    function Extract(): T
      requires Some?
    {
      value
    }
  }

  /** Either a value or the error that stopped its computation. */
  datatype Result<+R, +E> = Success(value: R) | Failure(error: E) {

    predicate IsFailure() {
      Failure?
    }

    function PropagateFailure<U>(): Result<U, E>
      requires Failure?
    {
      Failure(error)
    }

    function Extract(): R
      requires Success?
    {
      value
    }

    /** The same result with its error, if any, translated by `f`. */
    function MapFailure<NewE>(f: E -> NewE): (r: Result<R, NewE>)
      ensures Success? <==> r.Success?
      ensures Success? ==> r.value == value
      ensures Failure? ==> r.error == f(error)
    {
      match this
      case Success(v) => Success(v)
      case Failure(e) => Failure(f(e))
    }
  }
}
